=== FILE: README.md ===
# oak front end and evaluator, in Dafny

This project models the core of `oak`, a small language written in Go:

- the token table and keyword lookup (`token`);
- the scanner that turns source text into tokens (`scanner`);
- the syntax tree (`ast`);
- the Pratt-style parser (`parser`), which registers only identifier and integer prefix handlers and skips over the bodies of type declarations and return statements;
- the runtime values (`object`);
- the tree-walking evaluator (`evaluator`).

Each Go type becomes a Dafny datatype. Each Go method that mutates a scanner or parser becomes a pure function from the old state to the new one.

Module layout:

| file | module | Go package |
|---|---|---|
| `wrappers.dfy` | `Wrappers` | (the `Option` type) |
| `decimal.dfy` | `Decimal` | `strconv.ParseInt` on digit runs, `%d` and `strconv.Itoa` |
| `tokens.dfy` | `Tokens` | `token` |
| `chars.dfy` | `Chars` | the character classes of `util` on ASCII |
| `lexer.dfy`, `lexer_properties.dfy` | `Lexer`, `LexerProperties` | `scanner` |
| `ast.dfy` | `Ast` | `ast` |
| `parser.dfy`, `parser_properties.dfy` | `Parsing`, `ParserProperties` | `parser` |
| `objects.dfy` | `Objects` | `object` |
| `evaluator.dfy` | `Evaluator` | `evaluator` |
| `pipeline.dfy` | `Pipeline` | scanner → parser → evaluator on concrete inputs |

Main modelling decisions:

- **Token stream.** The parser reads its tokens from a scanner. The model gives it the sequence of tokens the scanner emits (`LexerProperties.Tokenize`), followed by `EOF ""` forever. `LexerProperties.StreamIsTokenize` proves that repeated `NextToken` calls yield exactly this sequence. `Pipeline.Scan` proves that every token in it is well formed.
- **Non-termination.** The `for !currentTokenIs(SEMI)` loops in type declarations and return statements never stop when no `;` follows: the scanner then returns EOF forever. Parse functions therefore return `Run<T>`, which is `Halts(parser, value)` or `Diverges`. The contracts of `SkipToSemi`, `ParseTypeDeclaration`, `ParseReturnStatement` and `ParseStatement` state exactly when divergence happens. For whole programs, `ParserProperties.ParseHalts` gives a sufficient condition: a `;` follows every `type` and `return`. It is not an if-and-only-if. Nothing in a `requires` clause rules divergence out.
- **Nil values.** A nil expression or statement is `None`. Evaluation results are `Option<Object>`.

## Model

| member | source | states |
|---|---|---|
| Tokens.KeywordsUpTo | token/token.go:124-129 | after the `init` loop has run up to kind i, the map sends each keyword spelling below i to its kind, and every key is such a spelling |
| Tokens.KeywordNamesDistinct | token/token.go:100-108 | the nine keyword spellings are pairwise distinct, so the map can be inverted |
| Tokens.KeywordsKeys | token/token.go:124-129 | the keys of the keyword map are exactly the nine keyword spellings |
| Tokens.Lookup | token/token.go:131-136 | the result is IDENT or a keyword kind; it is a keyword kind exactly when the candidate is a keyword spelling, and then that kind's name is the candidate |
| Tokens.LookupInvertsNames | token/token.go:124-136 | looking up the name of any keyword kind gives that kind back |
| Tokens.LookupIsCaseSensitive | token/token.go:131-136 | `Type` and `IF` resolve to IDENT: the lookup matches spellings exactly |
| Tokens.LookupOperators | token/token.go:131-136 | `==`, `=` and the empty string resolve to IDENT |
| Tokens.Name | token/token.go:63-109 | every kind below the keyword range has a non-empty name; keyword kinds are named by one of the nine spellings; the `_keywords_beg` marker and every kind outside the table have the empty name |
| Tokens.KindString | token/token.go:111-120 | a kind with a non-empty table slot renders as that name; any other kind renders as `token(n)`, where the text between the parentheses reads back as n |
| Tokens.KindStringHasNoQuote | token/token.go:111-120 | no rendering of a kind contains a single quote, so the quoted kind in a diagnostic ends at the first quote |
| Tokens.KindStringInjective | token/token.go:111-120 | distinct kinds render differently, so a diagnostic names exactly one kind |
| Tokens.TokenFormInjective | token/token.go:117 | the `token(n)` form determines n |
| Decimal.ParseInt | parser/parser.go:129 | parsing a digit run with base 0 never gives a negative value. Without a leading zero, it gives the decimal value within int64 and a range error above it. With a leading zero, the rest is read as octal, which succeeds only within int64; a non-octal digit there is an error |
| Decimal.LeadingZeroIsOctal | parser/parser.go:129 | `010` parses as 8, `08` fails, and `0` parses as 0 |
| Decimal.ParseIntInvertsRendering | parser/parser.go:129 | parsing the decimal rendering of any int64 value that is not negative gives that value back |
| Decimal.CanonicalRoundTrip | object/object.go:12-14 | rendering the value of a canonical digit string gives the string back |
| Decimal.IntToString | object/object.go:13 | `%d` and `strconv.Itoa`: the text is non-empty, starts with `-` exactly for a negative value, and is a canonical digit string for a value that is not negative |
| Decimal.IntToStringRoundTrip | object/object.go:12-14 | `%d` rendering is read back by `SignedValue` as the same integer |
| Lexer.ReadChar | scanner/scanner.go:27-46 | the head moves to the look-ahead position, the look-ahead moves one further, and the current character becomes the one there, or NUL past the end |
| Lexer.New | scanner/scanner.go:17-22 | a fresh scanner is in the valid state at position 0 |
| Lexer.PeekChar | scanner/scanner.go:188-194 | the result is the character after the cursor, or NUL past the end |
| Lexer.SkipWhitespace | scanner/scanner.go:159-163 | stops on the first character that is not whitespace; everything it passes over is whitespace |
| Lexer.ReadRun | scanner/scanner.go:172-174 | moves past a maximal run of one character class and stays within the input |
| Lexer.ReadLiteral | scanner/scanner.go:170-186 | the literal is the input slice from the start to the end of a maximal non-empty run; `read` is stepped back onto the head |
| Lexer.SymbolKind | scanner/scanner.go:74-133 | a character has a kind of its own exactly when it is one of the eighteen single-character symbols, and that kind's table name is the character |
| Lexer.SymbolKindCoversNames | scanner/scanner.go:74-133 | conversely, every kind whose name is one character other than `=` and `!` is the kind of that character |
| Lexer.NewToken | scanner/scanner.go:165-167 | the token has the given kind and the one character as its literal |
| Lexer.NextToken | scanner/scanner.go:50-153 | the scanner stays valid over the same input and always moves forward |
| LexerProperties.LeadingWhitespaceIgnored | scanner/scanner.go:159-163 | whitespace before a token does not change the token |
| LexerProperties.EofIsSticky | scanner/scanner.go:32-33 | once the input is exhausted, the scanner yields `EOF ""` and stays exhausted |
| LexerProperties.ExhaustedStaysEof | scanner/scanner.go:32-33 | every later call on an exhausted scanner yields `EOF ""` |
| LexerProperties.NulIsEof | scanner/scanner.go:135-138 | an embedded NUL yields `EOF ""`, and scanning resumes after it |
| LexerProperties.SymbolToken | scanner/scanner.go:74-133 | a single-character symbol yields its kind with the symbol as literal, and the cursor moves one past it |
| LexerProperties.EqualsToken | scanner/scanner.go:102-110 | `==` yields EQL with literal `==`; a lone `=` yields ASSIGN with literal `=` |
| LexerProperties.BangToken | scanner/scanner.go:117-125 | `!=` yields NEQL; a lone `!` yields BANG |
| LexerProperties.WordToken | scanner/scanner.go:141-143 | a letter starts a maximal run of identifier characters; the literal is that slice, and the kind is its keyword lookup |
| LexerProperties.NumberToken | scanner/scanner.go:144-146 | a digit starts a maximal run of digits, which is returned verbatim as INT |
| LexerProperties.IllegalToken | scanner/scanner.go:147-148 | any other character yields ILLEGAL carrying that character |
| LexerProperties.NextTokenWellFormed | scanner/scanner.go:50-153 | every token has the shape the parser relies on: INT literals are digit runs, identifiers are not keywords, and other kinds carry their table name |
| LexerProperties.TokenizeWellFormed | scanner/scanner.go:50-153 | all tokens of an input are well formed |
| LexerProperties.StreamIsTokenize | parser/parser.go:55-58 | the n-th `NextToken` call returns the n-th token of `Tokenize`, and `EOF ""` after its end |
| Parsing.NextToken | parser/parser.go:55-58 | the window moves one token along the stream, and the window invariant is kept |
| Parsing.New | parser/parser.go:24-41 | a fresh parser's window holds the first two tokens, and it has no diagnostics |
| Parsing.PeekErrorMessage | parser/parser.go:174 | the diagnostic is `expected next token to be '`, the expected kind's rendering, `', received `, then the received kind's rendering, and nothing else |
| ParserProperties.PeekErrorMessageInjective | parser/parser.go:174 | two diagnostics are equal only when they name the same expected and the same received kind |
| Parsing.PeekError | parser/parser.go:173-176 | appends exactly one diagnostic naming the expected kind and the kind of `peek` |
| Parsing.ExpectPeek | parser/parser.go:163-171 | succeeds exactly when `peek` has the expected kind; on success it advances once, otherwise it records one diagnostic and stays put |
| Parsing.FirstSemiFrom | parser/parser.go:72-74 | the first `;` at or after a position, if there is one |
| Parsing.SkipToSemi | parser/parser.go:72-74 | diverges exactly when no `;` remains; otherwise it stops on the first `;` with the diagnostics unchanged |
| Parsing.PrefixParseFn | parser/parser.go:30-33 | a prefix handler exists exactly for IDENT and INT |
| Parsing.ParseIdentifier | parser/parser.go:122-124 | an identifier node whose value is its token's literal |
| Parsing.IntegerErrorMessage | parser/parser.go:131 | the diagnostic is `could not parse "`, the literal, then `" as integer` |
| Parsing.IntegerErrorMessageInjective | parser/parser.go:131 | the diagnostic determines the literal it quotes |
| Parsing.ParseIntegerLiteral | parser/parser.go:126-138 | when `ParseInt` succeeds, an integer literal with that value and no diagnostic; otherwise one diagnostic and nil |
| Parsing.ParseExpression | parser/parser.go:113-120 | nil and no diagnostic without a handler; otherwise the handler's result; the window never moves |
| Parsing.ParseExpressionStatement | parser/parser.go:102-111 | an expression statement holding the parsed expression; it moves one token only when `;` follows |
| Parsing.ParseTypeDeclaration | parser/parser.go:60-76 | succeeds exactly when IDENT and then EQL follow `type` and a `;` remains; diverges exactly when no `;` remains; on success there is no value and no new diagnostic, and it stops on the first `;` after the `==`; on failure it records the diagnostic for the first missing token, IDENT or EQL, and stays on the token before it |
| Parsing.ParseReturnStatement | parser/parser.go:78-89 | diverges exactly when no `;` follows `return`; otherwise it stops on the first `;` after it, with no new diagnostic |
| Parsing.ParseStatement | parser/parser.go:91-100 | dispatches on `type`, `return` and everything else. It is exactly `ParseTypeDeclaration` on `type`, exactly `ParseReturnStatement` on `return`, and exactly `ParseExpressionStatement` on any other kind, with its expression, diagnostics and step past `;`. Only a failed type declaration yields nil, and a statement carries the token it started on |
| Parsing.ParseProgramFrom | parser/parser.go:140-153 | the corrected loop ends on EOF and keeps the statements parsed before |
| Parsing.ParseProgram | parser/parser.go:140-153 | the corrected `ParseProgram` (nil statements dropped, see Findings): a halted parse ends valid on EOF, further along the same stream |
| Parsing.ParseProgramAsWrittenFrom | parser/parser.go:140-153 | the loop as written ends on EOF and keeps every slot |
| ParserProperties.CorrectedDropsNilSlots | parser/parser.go:144-150 | the corrected loop keeps exactly the non-nil statements of the loop as written, in order, and ends in the same state; one halts exactly when the other does |
| ParserProperties.NilTypeDeclarationIsKept | parser/parser.go:91-100 | for the input `type` alone, the loop as written yields one nil statement, and the corrected loop yields none; `TokenLiteral` on the program as written dereferences that nil |
| ParserProperties.PresentLast | parser/parser.go:144-150 | when the last slot is a statement, it is also the last statement the corrected loop keeps |
| ParserProperties.StatementHalts | parser/parser.go:72-86 | when a `;` follows every `type` and `return`, no statement parse diverges |
| ParserProperties.ParseHalts | parser/parser.go:140-153 | under the same condition the whole parse halts |
| ParserProperties.StatementParsed | parser/parser.go:91-138 | a parsed statement is a value-less type declaration, a return, or an expression statement whose expression is nil, an identifier or an integer |
| ParserProperties.ProgramParsed | parser/parser.go:140-153 | every statement of a parsed program has that shape |
| ParserProperties.TypeDeclarationLiteral | ast/ast.go:38 | a parsed type declaration reports `type` as its token literal, and its name reports the identifier's value |
| Ast.IdentifierTokenLiteral | ast/ast.go:46 | an identifier reports its token's literal; for parsed declarations this is the identifier after `type` (ParserProperties.StatementLiteralIsStartToken) |
| Ast.StatementTokenLiteral | ast/ast.go:38 | a statement reports the literal of its token; for parsed statements this is the token the statement started on (ParserProperties.StatementLiteralIsStartToken) |
| ParserProperties.StatementLiteralIsStartToken | ast/ast.go:38-46 | every statement the parser builds reports the literal of the token it started on, and a declaration's name reports the token after `type` |
| Ast.ProgramTokenLiteral | ast/ast.go:23-29 | an empty program reports `""`; any other program reports the literal of the token its first statement was built from |
| Ast.SlotsTokenLiteral | ast/ast.go:23-38 | `TokenLiteral` on the program as written: `""` when empty, and a nil-receiver panic (`None`) exactly when the first slot is nil |
| ParserProperties.SlotsLiteralMatchesCorrected | ast/ast.go:23-29 | when the first slot is a statement, both programs report the same literal |
| ParserProperties.ProgramLiteralIsFirstToken | ast/ast.go:23-29 | when the text does not start with `type` or end at once, the parsed program reports the first token's literal, in both loops |
| ParserProperties.FirstDeclarationLiteral | ast/ast.go:23-38 | when the text starts with `type`, the program as written reports `type` if that declaration succeeds and panics if it fails |
| Objects.Kind | object/object.go:38-43 | no variant reports ILLEGAL, and every kind is inside the name table |
| Objects.KindsDistinct | object/object.go:15-28 | two objects share a kind exactly when they are the same variant |
| Objects.Inspect | object/object.go:12-29 | an integer renders as the `%d` text: it starts with `-` exactly when the value is negative, and its canonical digits read back as the value. Booleans render as `true` and `false`, and null renders as `null` |
| Objects.IntegerRenderingIsNumeric | object/object.go:12-14 | an integer's rendering begins with a digit or `-` |
| Objects.InspectInjective | object/object.go:12-29 | different values render differently |
| Objects.KindName | object/object.go:45-50 | every kind inside the table has a non-empty name |
| Objects.KindNamesDistinct | object/object.go:45-50 | distinct kinds inside the table have distinct names |
| Objects.KindString | object/object.go:52-61 | a kind inside the table renders as its name; any other kind renders as `object(n)`, where the text between the parentheses reads back as n |
| Objects.VariantKindNames | object/object.go:45-50 | the three variants render as INTEGER, BOOLEAN and NULL |
| Evaluator.MapBooleans | evaluator/evaluator.go:39-44 | the result is the boolean object of the same truth value |
| Evaluator.Eval | evaluator/evaluator.go:8-27 | integer literals give integers; booleans give the shared boolean of the same truth; identifiers, nil, and statements other than expression statements give nil |
| Evaluator.EvalStatements | evaluator/evaluator.go:29-37 | the loop's result is the last statement's value, or the initial nil when there is none |
| Evaluator.EvalSlot | evaluator/evaluator.go:8-27 | a nil `*TypeDeclarationStatement` slot matches no case and evaluates to nil; any other slot evaluates as its statement |
| Evaluator.EvalSlots | evaluator/evaluator.go:29-37 | the loop over the slots as written gives the last slot's value, nil slots included, or nil when there is none |
| Evaluator.EvalProgram | evaluator/evaluator.go:12-13 | a program evaluates to its last statement's value; an empty program evaluates to nil |
| Evaluator.EvalExpressionStatement | evaluator/evaluator.go:15-16 | an expression statement evaluates to its expression's value |
| Pipeline.Scan | scanner/scanner.go:50-153 | the tokens the scanner gives an ASCII text are well formed, so the parser accepts them |
| Pipeline.LoneEqualsIsAssign | scanner/scanner.go:102-110 | the text `=` scans to the single token ASSIGN `=` |
| Pipeline.EqlAssignMessage | parser/parser.go:173-176 | the diagnostic for a missing `==` that finds `=` reads `expected next token to be '==', received =` |
| Pipeline.TypeDeclarationWithAssignFails | parser/parser.go:60-70 | `type X = R;` records exactly that diagnostic and yields nil |
| Pipeline.BangHasNoPrefixHandler | parser/parser.go:113-117 | `!5;` parses without diagnostics into two expression statements: a nil one, then the literal 5 |
| Pipeline.ParsedProgramsYieldNoBooleans | evaluator/evaluator.go:8-27 | a program the parser builds evaluates to nil or to an integer, never to a boolean |
| Pipeline.NoTextEvaluatesToBoolean | evaluator/evaluator.go:8-27 | for every ASCII text whose parse halts, evaluating the program gives nil or an integer, for the program as written and for the corrected one |
| Pipeline.SlotsYieldNoBooleans | evaluator/evaluator.go:8-37 | the slots the loop as written keeps evaluate to nil or to an integer |
| Pipeline.SlotsEvaluateLikePresent | evaluator/evaluator.go:29-37 | when the last slot is a statement, the program as written and the corrected program evaluate alike |
| Pipeline.TrailingDeclarationHidesValue | evaluator/evaluator.go:26 | `5; type` evaluates to nil as written, because the nil slot comes last; the corrected program evaluates to 5 |
| Pipeline.TrueEvaluatesToNil | evaluator/evaluator.go:15-16 | the text `true` parses to a nil expression statement, which evaluates to nil |
| Pipeline.IntegerLiteralRoundTrip | parser/parser.go:126-138 | a canonical decimal literal within int64 parses and evaluates to its value, and inspecting that value gives the literal back |

## Code and tests disagree

In each of these cases the model follows the code.

- `scanner/scanner_test.go:25` expects EQL for `=`. The code gives ASSIGN (`Pipeline.LoneEqualsIsAssign`).
- `parser/parser_test.go:13-20` expects `type X = R ...;` to parse without diagnostics. The parser expects EQL (`==`) after the name. The scanner gives `=` the kind ASSIGN, so each such declaration records a diagnostic (`Pipeline.TypeDeclarationWithAssignFails`).
- `parser/parser_test.go:194-257` expects prefix expressions for `!5;` and `-15;`. No prefix handler for `!` or `-` is registered, so no prefix expression is ever built (`Pipeline.BangHasNoPrefixHandler`).
- `evaluator/evaluator_test.go:35-49` expects booleans from `true` and `false`. The parser never builds a boolean node (`Pipeline.NoTextEvaluatesToBoolean`, `Pipeline.TrueEvaluatesToNil`). This holds for the program as written, nil slots included, and for the corrected one.

## Left out

- `repl/repl.go` and `main.go` only read lines, print output and call the core. They are I/O and are not modelled.
- The `util` package is not part of this model. `Chars` defines its predicates for ASCII: letters are `a`–`z`, `A`–`Z` and `_`; digits are `0`–`9`; identifier characters are letters or digits; whitespace is space, tab, newline and carriage return.
- Lexer.Valid: the input is restricted to ASCII. The Go scanner indexes bytes and widens each byte to a rune, so multi-byte UTF-8 input is not modelled.
- Lexer.Scanner: `head` and `read` are unbounded integers. Go's `int` overflow cannot happen on any input that fits in memory.
- Decimal.ParseInt: covers only non-empty digit runs, which is the only literal the scanner produces. Signs, `0x`, `0o`, `0b` and underscores are not modelled.
- Parsing.IntegerErrorMessage: `%q` is modelled only on digit runs, where it just adds double quotes.
- Infix handlers are never registered and never called. `registerInfix` and the infix map are therefore left out.
- `Errors()` only returns the diagnostics list. That list is the `errors` field of `Parsing.Parser`.
- The precedence constants are declared, but no handler consults them.
- `TypeDeclarationStatement.Value` is never set by the parser, so it is always `None`.
- Pointer identity is not modelled: objects are values. The sharing of `TRUE` and `FALSE` (evaluator/evaluator.go:46-50) and the fresh `&object.Integer` built by each evaluation cannot be told apart, and nothing in the core compares objects. The `NULL` variable is never used by `Eval`.
- The node types `ReturnStatement`, `ExpressionStatement`, `IntegerLiteral` and `Boolean` are used by the parser and the evaluator but are not declared in `ast/ast.go`. They carry only the fields those uses need.
- TRIVIA and COMMENT have names in the table, but the scanner never produces them.
- A parse that the Go code would loop on forever is the value `Diverges`. The model does not run it.

## Findings

| source | as written | input that shows it | evidently intended | confidence | as-written member | corrected member |
|---|---|---|---|---|---|---|
| parser/parser.go:91-100 | `parseTypeDeclaration` returns a nil `*TypeDeclarationStatement`. `parseStatement` returns it as an `ast.Statement` interface, which is then non-nil. `ParseProgram`'s `stmt != nil` test never drops it, so the program holds a nil statement. When it comes first, `Program.TokenLiteral` calls `TokenLiteral` on it (ast/ast.go:25), which dereferences nil (ast/ast.go:38). `Eval` does not dereference it: no case matches, and it returns nil (evaluator/evaluator.go:26), so a trailing nil statement hides the value before it | the text `type` alone, or `type X = R;`; `5; type` evaluates to nil | a failed type declaration adds no statement to the program | high, not executed | Parsing.ParseProgramAsWrittenFrom with Evaluator.EvalSlots (shown by ParserProperties.NilTypeDeclarationIsKept, ParserProperties.FirstDeclarationLiteral and Pipeline.TrailingDeclarationHidesValue) | Parsing.ParseProgramFrom (related to the code by ParserProperties.CorrectedDropsNilSlots) |

=== FILE: ast.dfy ===
/**
 * The syntax tree. `Program`, `TypeDeclarationStatement` and `Identifier`
 * are the source's own node types; `ReturnStatement`, `ExpressionStatement`,
 * `IntegerLiteral` and `Boolean` are used by the parser and the evaluator
 * but not declared in the AST file, so they carry exactly the fields those
 * uses need. A nil expression is `None`.
 */
module Ast {
  import opened Wrappers
  import opened Decimal
  import opened Tokens

  datatype Identifier = Identifier(token: Token, value: string)

  datatype Expression =
    | IdentifierExpr(ident: Identifier)
    | IntegerLiteral(token: Token, value: int64)
    | Boolean(token: Token, truth: bool)

  datatype Statement =
    | TypeDeclarationStatement(token: Token, name: Identifier, value: Option<Expression>)
    | ReturnStatement(token: Token)
    | ExpressionStatement(token: Token, expression: Option<Expression>)

  datatype Program = Program(statements: seq<Statement>)

  function IdentifierTokenLiteral(i: Identifier): string {
    i.token.literal
  }

  /** Every statement reports the literal of the token that began it. */
  function StatementTokenLiteral(s: Statement): string {
    s.token.literal
  }

  /**
   * `Program.TokenLiteral` on the statement slots the parser actually
   * stores, where a slot may hold a nil `*TypeDeclarationStatement`: a nil
   * first slot is a nil receiver whose `Token` field is read, a nil
   * dereference (`None`).
   */
  function SlotsTokenLiteral(slots: seq<Option<Statement>>): (r: Option<string>)
    ensures |slots| == 0 ==> r == Some("")
    ensures r.None? <==> |slots| > 0 && slots[0].None?
  {
    if |slots| == 0 then Some("")
    else match slots[0]
      case None => None
      case Some(s) => Some(StatementTokenLiteral(s))
  }

  /** A program reports its first statement's literal, or "" when empty. */
  function ProgramTokenLiteral(p: Program): (r: string)
    ensures |p.statements| == 0 ==> r == ""
    ensures |p.statements| > 0 ==> r == p.statements[0].token.literal
  {
    if |p.statements| > 0 then StatementTokenLiteral(p.statements[0]) else ""
  }
}

=== FILE: chars.dfy ===
/**
 * Character classes used by the scanner. The source takes them from a
 * `util` package that is not part of this model; they are modelled here
 * as ASCII classes with the properties the scanner relies on: a letter is
 * an identifier character, digits are '0'..'9', and NUL belongs to no class.
 */
module Chars {
  const NUL: char := 0 as char

  predicate IsAscii(s: string) {
    forall i :: 0 <= i < |s| ==> s[i] < 128 as char
  }

  predicate IsLetter(c: char) {
    'a' <= c <= 'z' || 'A' <= c <= 'Z' || c == '_'
  }

  predicate IsDigit(c: char) {
    '0' <= c <= '9'
  }

  predicate IsDigits(s: string) {
    forall i :: 0 <= i < |s| ==> IsDigit(s[i])
  }

  predicate IsIdentifierChar(c: char) {
    IsLetter(c) || IsDigit(c)
  }

  predicate IsWhitespace(c: char) {
    c == ' ' || c == '\t' || c == '\n' || c == '\r'
  }

  /** The classes the scanner runs over: identifier characters and digits. */
  datatype Class = IdentChars | Digits

  predicate InClass(c: char, cls: Class) {
    match cls
    case IdentChars => IsIdentifierChar(c)
    case Digits => IsDigit(c)
  }
}

=== FILE: decimal.dfy ===
/**
 * Decimal and octal digit strings: the rendering used by Go's
 * `strconv.Itoa` and `fmt.Sprintf("%d", …)`, and the digit-run part of
 * `strconv.ParseInt(s, 0, 64)`.
 */
module Decimal {
  import opened Wrappers
  import opened Chars

  /** Go's int64. */
  const MinInt64: int := -0x8000_0000_0000_0000
  const MaxInt64: int := 0x7FFF_FFFF_FFFF_FFFF
  type int64 = x: int | MinInt64 <= x <= MaxInt64

  predicate IsOctalDigits(s: string) {
    forall i :: 0 <= i < |s| ==> '0' <= s[i] <= '7'
  }

  function DigitValue(c: char): nat
    requires IsDigit(c)
  {
    c as int - '0' as int
  }

  function DigitChar(d: nat): (c: char)
    requires d < 10
    ensures IsDigit(c) && DigitValue(c) == d
  {
    ('0' as int + d) as char
  }

  /** The value of a digit string read in `base`, most significant digit first. */
  function DigitsValue(s: string, base: nat): nat
    requires IsDigits(s)
  {
    if |s| == 0 then 0
    else DigitsValue(s[..|s| - 1], base) * base + DigitValue(s[|s| - 1])
  }

  /** The shortest decimal rendering of a natural number. */
  function NatToString(n: nat): string
    decreases n
  {
    if n < 10 then [DigitChar(n)]
    else NatToString(n / 10) + [DigitChar(n % 10)]
  }

  /** Signed decimal rendering: `strconv.Itoa` and the `%d` verb. */
  function IntToString(i: int): (r: string)
    ensures |r| > 0 && (r[0] == '-' <==> i < 0)
    ensures i >= 0 ==> IsCanonical(r)
  {
    NatToStringIsCanonical(if i < 0 then -i else i);
    if i < 0 then "-" + NatToString(-i) else NatToString(i)
  }

  /** A digit string with no redundant leading zero. */
  predicate IsCanonical(s: string) {
    |s| > 0 && IsDigits(s) && (s[0] == '0' ==> |s| == 1)
  }

  /** Reads back a signed decimal rendering. */
  function SignedValue(s: string): Option<int> {
    if |s| > 0 && s[0] == '-' && IsCanonical(s[1..]) then Some(0 - DigitsValue(s[1..], 10))
    else if IsCanonical(s) then Some(DigitsValue(s, 10))
    else None
  }

  /**
   * `strconv.ParseInt(s, 0, 64)` on a non-empty digit run: a leading `0`
   * selects octal for the remaining digits (so `"0"` is zero and `"08"`
   * is a syntax error), anything else is decimal, and a value above
   * 2^63-1 is a range error. None stands for a non-nil error.
   */
  function ParseInt(s: string): (r: Option<int64>)
    requires |s| > 0 && IsDigits(s)
    ensures r.Some? ==> 0 <= r.value
    ensures s[0] != '0' && DigitsValue(s, 10) <= MaxInt64 ==> r == Some(DigitsValue(s, 10))
    ensures s[0] != '0' && DigitsValue(s, 10) > MaxInt64 ==> r.None?
    ensures s[0] == '0' && !IsOctalDigits(s[1..]) ==> r.None?
    ensures s[0] == '0' && IsOctalDigits(s[1..]) ==>
              if DigitsValue(s[1..], 8) <= MaxInt64 then r == Some(DigitsValue(s[1..], 8)) else r.None?
  {
    var v := if s[0] == '0' then
               (if IsOctalDigits(s[1..]) then Some(DigitsValue(s[1..], 8)) else None)
             else Some(DigitsValue(s, 10));
    if v.Some? && v.value <= MaxInt64 then Some(v.value) else None
  }

  lemma NatToStringIsCanonical(n: nat)
    ensures IsCanonical(NatToString(n))
    ensures n > 0 ==> NatToString(n)[0] != '0'
  {
    if n >= 10 {
      NatToStringIsCanonical(n / 10);
    }
  }

  /** Reading back a rendering gives the number. */
  lemma {:induction false} NatToStringRoundTrip(n: nat)
    ensures IsDigits(NatToString(n))
    ensures DigitsValue(NatToString(n), 10) == n
    decreases n
  {
    NatToStringIsCanonical(n);
    if n >= 10 {
      var s := NatToString(n);
      NatToStringRoundTrip(n / 10);
      assert s[..|s| - 1] == NatToString(n / 10);
    }
  }

  lemma {:induction false} LeadingNonZeroPositive(s: string, base: nat)
    requires |s| > 0 && IsDigits(s) && s[0] != '0' && base >= 1
    ensures DigitsValue(s, base) >= 1
    decreases |s|
  {
    if |s| > 1 {
      LeadingNonZeroPositive(s[..|s| - 1], base);
    }
  }

  /** Rendering the value of a canonical digit string gives the string back. */
  lemma {:induction false} CanonicalRoundTrip(s: string)
    requires IsCanonical(s)
    ensures NatToString(DigitsValue(s, 10)) == s
    decreases |s|
  {
    if |s| > 1 {
      var t := s[..|s| - 1];
      LeadingNonZeroPositive(t, 10);
      CanonicalRoundTrip(t);
      var v := DigitsValue(s, 10);
      assert v / 10 == DigitsValue(t, 10) && v % 10 == DigitValue(s[|s| - 1]);
      assert s == t + [s[|s| - 1]];
    }
  }

  /** `IntToString` and `SignedValue` are inverse on every integer. */
  lemma IntToStringRoundTrip(i: int)
    ensures SignedValue(IntToString(i)) == Some(i)
  {
    NatToStringIsCanonical(if i < 0 then -i else i);
    NatToStringRoundTrip(if i < 0 then -i else i);
    if i < 0 {
      var s := IntToString(i);
      assert s[1..] == NatToString(-i);
    } else {
      assert IntToString(i)[0] != '-';
    }
  }

  /** Octal is chosen by a leading zero: `"010"` reads as eight. */
  lemma LeadingZeroIsOctal()
    ensures ParseInt("010") == Some(8)
    ensures ParseInt("08") == None
    ensures ParseInt("0") == Some(0)
  {
    assert "010"[1..] == "10";
    assert "10"[..1] == "1" && "1"[..0] == "";
    assert DigitsValue("10", 8) == 8;
    assert "08"[1..] == "8";
    assert "8"[0] == '8';
    assert "0"[1..] == "";
  }

  /** The rendering of every int64 value of at least zero parses back to it. */
  lemma ParseIntInvertsRendering(n: nat)
    requires n <= MaxInt64
    ensures var s := NatToString(n); |s| > 0 && IsDigits(s) && ParseInt(s) == Some(n)
  {
    NatToStringIsCanonical(n);
    NatToStringRoundTrip(n);
    var s := NatToString(n);
    if s[0] == '0' {
      assert s == "0";
      assert n == 0;
      assert s[1..] == "";
    }
  }
}

=== FILE: evaluator.dfy ===
/**
 * The evaluator: integer and boolean literals evaluate to values, an
 * expression statement to its expression's value, and a program to the
 * value of its last statement. Everything else, nil included, evaluates
 * to nil (`None`).
 */
module Evaluator {
  import opened Wrappers
  import opened Ast
  import Tokens
  import Objects

  /** Anything `Eval` accepts: a program, a statement, an expression or nil. */
  datatype Node =
    | ProgramNode(program: Program)
    | StatementNode(statement: Statement)
    | ExpressionNode(expression: Expression)
    | NilNode

  /** The shared boolean values. */
  const TRUE: Objects.Object := Objects.Boolean(true)
  const FALSE: Objects.Object := Objects.Boolean(false)

  /** `mapBooleans`: the boolean object of the same truth value. */
  function MapBooleans(b: bool): (r: Objects.Object)
    ensures r.Boolean? && r.truth == b
  {
    if b then TRUE else FALSE
  }

  /** A possibly nil expression as a node. */
  function ExpressionOrNil(e: Option<Expression>): Node {
    match e
    case Some(x) => ExpressionNode(x)
    case None => NilNode
  }

  function Rank(n: Node): nat {
    match n
    case ProgramNode(_) => 3
    case StatementNode(_) => 2
    case ExpressionNode(_) => 1
    case NilNode => 0
  }

  function Eval(node: Node): (r: Option<Objects.Object>)
    ensures node.ExpressionNode? && node.expression.IntegerLiteral? ==>
              r == Some(Objects.Integer(node.expression.value))
    ensures node.ExpressionNode? && node.expression.Boolean? ==>
              r.Some? && r.value.Boolean? && r.value.truth == node.expression.truth
    ensures node.NilNode? || (node.ExpressionNode? && node.expression.IdentifierExpr?) ==> r.None?
    ensures node.StatementNode? && !node.statement.ExpressionStatement? ==> r.None?
    decreases Rank(node), 0
  {
    match node
    case ProgramNode(p) => EvalStatements(p.statements, 0, None)
    case StatementNode(ExpressionStatement(_, e)) => Eval(ExpressionOrNil(e))
    case ExpressionNode(IntegerLiteral(_, v)) => Some(Objects.Integer(v))
    case ExpressionNode(Boolean(_, b)) => Some(MapBooleans(b))
    case _ => None
  }

  /** `evalStatements`: evaluates `stmts[i..]` in order, keeping the last result. */
  function EvalStatements(stmts: seq<Statement>, i: nat, result: Option<Objects.Object>): (r: Option<Objects.Object>)
    requires i <= |stmts|
    ensures i == |stmts| ==> r == result
    ensures i < |stmts| ==> r == Eval(StatementNode(stmts[|stmts| - 1]))
    decreases 2, |stmts| - i + 1
  {
    if i == |stmts| then result
    else EvalStatements(stmts, i + 1, Eval(StatementNode(stmts[i])))
  }

  /** A program evaluates to its last statement's value, and an empty one to nil. */
  lemma EvalProgram(p: Program)
    ensures |p.statements| == 0 ==> Eval(ProgramNode(p)).None?
    ensures |p.statements| > 0 ==> Eval(ProgramNode(p)) == Eval(StatementNode(p.statements[|p.statements| - 1]))
  {
  }

  /** An expression statement evaluates to its expression's value. */
  lemma EvalExpressionStatement(t: Tokens.Token, e: Option<Expression>)
    ensures Eval(StatementNode(ExpressionStatement(t, e))) == Eval(ExpressionOrNil(e))
  {
  }

  /**
   * One slot of the program the parser as written builds. A nil
   * `*TypeDeclarationStatement` matches no case of the type switch, so it
   * evaluates to nil without being dereferenced.
   */
  function EvalSlot(slot: Option<Statement>): Option<Objects.Object> {
    match slot
    case None => None
    case Some(s) => Eval(StatementNode(s))
  }

  /** `evalStatements` over those slots: the last slot's value, nil slots included. */
  function EvalSlots(slots: seq<Option<Statement>>, i: nat, result: Option<Objects.Object>): (r: Option<Objects.Object>)
    requires i <= |slots|
    ensures i == |slots| ==> r == result
    ensures i < |slots| ==> r == EvalSlot(slots[|slots| - 1])
    decreases |slots| - i
  {
    if i == |slots| then result
    else EvalSlots(slots, i + 1, EvalSlot(slots[i]))
  }
}

=== FILE: lexer.dfy ===
/**
 * The scanner: a byte cursor over the input (`head`, `read`, `current`)
 * and `NextToken`, modelled as a state record and pure step functions.
 * Each Go method that mutates the scanner becomes a function from the
 * old state to the new one.
 */
module Lexer {
  import opened Wrappers
  import opened Chars
  import opened Decimal
  import opened Tokens

  datatype Scanner = Scanner(input: string, head: int, read: int, current: char)

  /** The character under the cursor at position i; NUL past the end. */
  function CharAt(input: string, i: int): char {
    if 0 <= i < |input| then input[i] else NUL
  }

  /**
   * The state between two calls: `read` is one ahead of `head`, and
   * `current` is the character at `head` (NUL once the input is exhausted).
   * The model covers ASCII input only.
   */
  predicate Valid(s: Scanner) {
    && IsAscii(s.input)
    && 0 <= s.head
    && s.read == s.head + 1
    && s.current == CharAt(s.input, s.head)
  }

  /** The valid state whose cursor is at position pos. */
  function At(input: string, pos: nat): Scanner {
    Scanner(input, pos, pos + 1, CharAt(input, pos))
  }

  /** Advances the cursor: the look-ahead position becomes the head. */
  function ReadChar(s: Scanner): (r: Scanner)
    requires 0 <= s.read
    ensures r == At(s.input, s.read)
  {
    var c := if s.read >= |s.input| then NUL else s.input[s.read];
    Scanner(s.input, s.read, s.read + 1, c)
  }

  /** A fresh scanner has read the first character. */
  function New(input: string): (s: Scanner)
    requires IsAscii(input)
    ensures Valid(s) && s.input == input && s.head == 0
  {
    ReadChar(Scanner(input, 0, 0, NUL))
  }

  /** The character after the cursor, without moving. */
  function PeekChar(s: Scanner): (c: char)
    requires Valid(s)
    ensures c == CharAt(s.input, s.head + 1)
  {
    if s.read >= |s.input| then NUL else s.input[s.read]
  }

  /** Moves past whitespace; stops at the first other character or at the end. */
  function SkipWhitespace(s: Scanner): (r: Scanner)
    requires Valid(s)
    ensures Valid(r) && r.input == s.input && s.head <= r.head
    ensures !IsWhitespace(r.current)
    ensures forall i :: s.head <= i < r.head ==> IsWhitespace(CharAt(s.input, i))
    decreases |s.input| - s.head
  {
    if IsWhitespace(s.current) then SkipWhitespace(ReadChar(s)) else s
  }

  /** Moves past a run of characters of class cls. */
  function ReadRun(s: Scanner, cls: Class): (r: Scanner)
    requires Valid(s)
    ensures Valid(r) && r.input == s.input && s.head <= r.head
    ensures !InClass(r.current, cls)
    ensures forall i :: s.head <= i < r.head ==> InClass(CharAt(s.input, i), cls)
    ensures s.head <= |s.input| ==> r.head <= |s.input|
    decreases |s.input| - s.head
  {
    if InClass(s.current, cls) then ReadRun(ReadChar(s), cls) else s
  }

  /**
   * `readWord` and `readNumber`: the maximal run starting at the cursor,
   * leaving `read` stepped back onto the first character after the run,
   * which the final `readChar` of `NextToken` reads again.
   */
  function ReadLiteral(s: Scanner, cls: Class): (r: (Scanner, string))
    requires Valid(s) && InClass(s.current, cls)
    ensures r.0.read == r.0.head && r.0.input == s.input && s.head < r.0.head <= |s.input|
    ensures r.1 == s.input[s.head..r.0.head]
    ensures forall i :: s.head <= i < r.0.head ==> InClass(CharAt(s.input, i), cls)
    ensures !InClass(CharAt(s.input, r.0.head), cls)
  {
    var position := s.head;
    var t := ReadRun(s, cls);
    (t.(read := t.read - 1), s.input[position..t.head])
  }

  /** The characters the scanner turns into a one-character symbol token. */
  const SymbolChars: string := "[]{}()<>,.:;|&-+*/"

  /** The eighteen single-character symbols and their kinds; each kind is named by its symbol. */
  function SymbolKind(c: char): (r: Option<int>)
    ensures r.Some? <==> c in SymbolChars
    ensures r.Some? ==> IsNamed(r.value) && Name(r.value) == [c]
  {
    match c
    case '[' => Some(LBRACK)
    case ']' => Some(RBRACK)
    case '{' => Some(LBRACE)
    case '}' => Some(RBRACE)
    case '(' => Some(LPAREN)
    case ')' => Some(RPAREN)
    case '<' => Some(LCHEV)
    case '>' => Some(RCHEV)
    case ',' => Some(COMMA)
    case '.' => Some(DOT)
    case ':' => Some(COLON)
    case ';' => Some(SEMI)
    case '|' => Some(PIPE)
    case '&' => Some(AMP)
    case '-' => Some(NEG)
    case '+' => Some(SUM)
    case '*' => Some(MUL)
    case '/' => Some(QUO)
    case _ => None
  }

  /**
   * Every one-character name in the table other than `=` and `!` belongs to
   * a symbol, and that symbol's kind is the named one: the symbol cases and
   * the name table agree.
   */
  lemma SymbolKindCoversNames(k: int)
    requires IsNamed(k) && |Name(k)| == 1 && Name(k) != "=" && Name(k) != "!"
    ensures SymbolKind(Name(k)[0]) == Some(k)
  {
  }

  /** `newToken`: a token of the given kind whose literal is the one character. */
  function NewToken(kind: int, c: char): (t: Token)
    ensures t.kind == kind && |t.literal| == 1 && t.literal[0] == c
  {
    Token(kind, [c])
  }

  /** Emits the next token and the scanner state after it. */
  function NextToken(s: Scanner): (r: (Scanner, Token))
    requires Valid(s)
    ensures Valid(r.0) && r.0.input == s.input && s.head < r.0.head
  {
    var s := SkipWhitespace(s);
    var c := s.current;
    if c == '=' then
      if PeekChar(s) == '=' then
        var t := ReadChar(s);
        (ReadChar(t), Token(EQL, [c] + [t.current]))
      else (ReadChar(s), NewToken(ASSIGN, c))
    else if c == '!' then
      if PeekChar(s) == '=' then
        var t := ReadChar(s);
        (ReadChar(t), Token(NEQL, [c] + [t.current]))
      else (ReadChar(s), NewToken(BANG, c))
    else if SymbolKind(c).Some? then (ReadChar(s), NewToken(SymbolKind(c).value, c))
    else if c == NUL then (ReadChar(s), Token(EOF, ""))
    else if IsLetter(c) then
      var (t, literal) := ReadLiteral(s, IdentChars);
      (ReadChar(t), Token(Lookup(literal), literal))
    else if IsDigit(c) then
      var (t, literal) := ReadLiteral(s, Digits);
      (ReadChar(t), Token(INT, literal))
    else (ReadChar(s), NewToken(ILLEGAL, c))
  }
}

=== FILE: lexer_properties.dfy ===
/**
 * What `NextToken` promises, stated over input positions, and the token
 * stream a scanner produces when called repeatedly.
 */
module LexerProperties {
  import opened Chars
  import opened Decimal
  import opened Tokens
  import opened Lexer

  /** The position of the first character of the next token. */
  function TokenStart(s: Scanner): (j: int)
    requires Valid(s)
    ensures s.head <= j
  {
    SkipWhitespace(s).head
  }

  /** Whitespace before a token does not change the token. */
  lemma LeadingWhitespaceIgnored(s: Scanner)
    requires Valid(s) && IsWhitespace(s.current)
    ensures NextToken(s) == NextToken(ReadChar(s))
  {
  }

  /** Once the input is exhausted every call yields `EOF ""` and stays exhausted. */
  lemma EofIsSticky(s: Scanner)
    requires Valid(s) && s.head >= |s.input|
    ensures NextToken(s).1 == Token(EOF, "")
    ensures NextToken(s).0.head >= |s.input|
  {
  }

  /** An embedded NUL is indistinguishable from the end of input. */
  lemma NulIsEof(s: Scanner)
    requires Valid(s) && CharAt(s.input, TokenStart(s)) == NUL
    ensures NextToken(s) == (At(s.input, TokenStart(s) + 1), Token(EOF, ""))
  {
  }

  /** Each single-character symbol yields its own kind with a one-character literal. */
  lemma SymbolToken(s: Scanner)
    requires Valid(s)
    requires SymbolKind(CharAt(s.input, TokenStart(s))).Some?
    ensures var c := CharAt(s.input, TokenStart(s));
            NextToken(s) == (At(s.input, TokenStart(s) + 1), Token(SymbolKind(c).value, [c]))
  {
  }

  /** `==` is one EQL token; a lone `=` is ASSIGN. */
  lemma EqualsToken(s: Scanner)
    requires Valid(s) && CharAt(s.input, TokenStart(s)) == '='
    ensures var j := TokenStart(s);
            if CharAt(s.input, j + 1) == '=' then NextToken(s) == (At(s.input, j + 2), Token(EQL, "=="))
            else NextToken(s) == (At(s.input, j + 1), Token(ASSIGN, "="))
  {
    var s1 := SkipWhitespace(s);
    if PeekChar(s1) == '=' {
      assert ReadChar(s1).current == '=';
      assert ['='] + ['='] == "==";
    }
  }

  /** `!=` is one NEQL token; a lone `!` is BANG. */
  lemma BangToken(s: Scanner)
    requires Valid(s) && CharAt(s.input, TokenStart(s)) == '!'
    ensures var j := TokenStart(s);
            if CharAt(s.input, j + 1) == '=' then NextToken(s) == (At(s.input, j + 2), Token(NEQL, "!="))
            else NextToken(s) == (At(s.input, j + 1), Token(BANG, "!"))
  {
    var s1 := SkipWhitespace(s);
    if PeekChar(s1) == '=' {
      assert ReadChar(s1).current == '=';
      assert ['!'] + ['='] == "!=";
    }
  }

  /**
   * A letter starts a maximal run of identifier characters; the literal is
   * that slice of the input and the kind is its keyword lookup.
   */
  lemma WordToken(s: Scanner)
    requires Valid(s) && IsLetter(CharAt(s.input, TokenStart(s)))
    ensures var j := TokenStart(s);
            var (t, tok) := NextToken(s);
            && j < t.head <= |s.input|
            && tok.literal == s.input[j..t.head]
            && (forall i :: j <= i < t.head ==> IsIdentifierChar(s.input[i]))
            && !IsIdentifierChar(CharAt(s.input, t.head))
            && tok.kind == Lookup(tok.literal)
  {
    var s1 := SkipWhitespace(s);
    var c := s1.current;
    assert c != '=' && c != '!' && c != NUL && SymbolKind(c).None?;
    var r := ReadLiteral(s1, IdentChars);
    assert NextToken(s) == (ReadChar(r.0), Token(Lookup(r.1), r.1));
    assert ReadChar(r.0).head == r.0.head;
    forall i | s1.head <= i < r.0.head
      ensures IsIdentifierChar(s.input[i])
    {
      assert InClass(CharAt(s.input, i), IdentChars);
    }
  }

  /** A digit starts a maximal run of digits, returned verbatim as INT. */
  lemma NumberToken(s: Scanner)
    requires Valid(s) && IsDigit(CharAt(s.input, TokenStart(s)))
    ensures var j := TokenStart(s);
            var (t, tok) := NextToken(s);
            && j < t.head <= |s.input|
            && tok == Token(INT, s.input[j..t.head])
            && (forall i :: j <= i < t.head ==> IsDigit(s.input[i]))
            && !IsDigit(CharAt(s.input, t.head))
  {
    var s1 := SkipWhitespace(s);
    var c := s1.current;
    assert c != '=' && c != '!' && c != NUL && SymbolKind(c).None?;
    var r := ReadLiteral(s1, Digits);
    assert NextToken(s) == (ReadChar(r.0), Token(INT, r.1));
    assert ReadChar(r.0).head == r.0.head;
    forall i | s1.head <= i < r.0.head
      ensures IsDigit(s.input[i])
    {
      assert InClass(CharAt(s.input, i), Digits);
    }
  }

  /** Any other character yields ILLEGAL carrying that character. */
  lemma IllegalToken(s: Scanner)
    requires Valid(s)
    requires var c := CharAt(s.input, TokenStart(s));
             c != '=' && c != '!' && SymbolKind(c).None? && c != NUL && !IsLetter(c) && !IsDigit(c)
    ensures var c := CharAt(s.input, TokenStart(s));
            NextToken(s) == (At(s.input, TokenStart(s) + 1), Token(ILLEGAL, [c]))
  {
  }

  /** Every token the scanner emits has the shape the parser relies on. */
  lemma NextTokenWellFormed(s: Scanner)
    requires Valid(s)
    ensures WellFormed(NextToken(s).1)
  {
    var j := TokenStart(s);
    var c := CharAt(s.input, j);
    if IsLetter(c) && c != NUL {
      WordToken(s);
      var tok := NextToken(s).1;
      if Lookup(tok.literal) != IDENT {
        assert IsNamed(tok.kind);
      }
    } else if IsDigit(c) {
      NumberToken(s);
    } else if SymbolKind(c).Some? {
      SymbolToken(s);
    }
  }

  /** The token returned by the (n+1)-th call of `NextToken`. */
  function NthToken(s: Scanner, n: nat): Token
    requires Valid(s)
    decreases n
  {
    if n == 0 then NextToken(s).1 else NthToken(NextToken(s).0, n - 1)
  }

  /**
   * The tokens emitted before the cursor runs past the end of the input.
   * It may contain EOF tokens in the middle (one per embedded NUL) and at
   * its end (trailing whitespace).
   */
  function Tokenize(s: Scanner): (toks: seq<Token>)
    requires Valid(s)
    decreases |s.input| - s.head
  {
    if s.head >= |s.input| then []
    else [NextToken(s).1] + Tokenize(NextToken(s).0)
  }

  lemma {:induction false} TokenizeWellFormed(s: Scanner)
    requires Valid(s)
    ensures AllWellFormed(Tokenize(s))
    decreases |s.input| - s.head
  {
    if s.head < |s.input| {
      NextTokenWellFormed(s);
      TokenizeWellFormed(NextToken(s).0);
    }
  }

  /** Once exhausted, every later call still yields `EOF ""`. */
  lemma {:induction false} ExhaustedStaysEof(s: Scanner, n: nat)
    requires Valid(s) && s.head >= |s.input|
    ensures NthToken(s, n) == Token(EOF, "")
    decreases n
  {
    EofIsSticky(s);
    if n > 0 {
      ExhaustedStaysEof(NextToken(s).0, n - 1);
    }
  }

  lemma TokenizeStep(s: Scanner)
    requires Valid(s) && s.head < |s.input|
    ensures Tokenize(s) == [NextToken(s).1] + Tokenize(NextToken(s).0)
  {
  }

  lemma TokenAtCons(t: Token, rest: seq<Token>, n: nat)
    requires n > 0
    ensures TokenAt([t] + rest, n) == TokenAt(rest, n - 1)
  {
  }

  /**
   * Calling `NextToken` repeatedly yields `Tokenize` and then `EOF ""`
   * forever: the parser may be modelled over that token sequence.
   */
  lemma {:induction false} StreamIsTokenize(s: Scanner, n: nat)
    requires Valid(s)
    ensures NthToken(s, n) == TokenAt(Tokenize(s), n)
    decreases |s.input| - s.head
  {
    if s.head >= |s.input| {
      ExhaustedStaysEof(s, n);
    } else {
      TokenizeStep(s);
      if n > 0 {
        StreamIsTokenize(NextToken(s).0, n - 1);
        TokenAtCons(NextToken(s).1, Tokenize(NextToken(s).0), n);
      }
    }
  }
}

=== FILE: objects.dfy ===
/** Runtime values: integers, booleans and null, with a kind tag and an inspect string. */
module Objects {
  import opened Wrappers
  import opened Decimal
  import opened Chars

  const ILLEGAL: int := 0
  const INTEGER: int := 1
  const BOOLEAN: int := 2
  const NULL: int := 3
  /** Length of the kind-name table. */
  const KindCount: int := 4

  datatype Object = Integer(value: int64) | Boolean(truth: bool) | Null

  /** The kind tag of each variant; no variant reports ILLEGAL. */
  function Kind(o: Object): (k: int)
    ensures ILLEGAL < k < KindCount
  {
    match o
    case Integer(_) => INTEGER
    case Boolean(_) => BOOLEAN
    case Null => NULL
  }

  /** Two objects share a kind exactly when they are the same variant. */
  lemma KindsDistinct(a: Object, b: Object)
    ensures Kind(a) == Kind(b) <==> (a.Integer? && b.Integer?) || (a.Boolean? && b.Boolean?) || (a.Null? && b.Null?)
  {
  }

  /** The human-readable form of a value. */
  function Inspect(o: Object): (r: string)
    ensures o.Integer? ==> SignedValue(r) == Some(o.value as int)
    ensures o.Integer? ==> |r| > 0 && (r[0] == '-' <==> o.value < 0)
    ensures o.Boolean? ==> (r == "true" <==> o.truth) && (r == "false" <==> !o.truth)
    ensures o.Null? ==> r == "null"
  {
    match o
    case Integer(v) =>
      IntToStringRoundTrip(v);
      IntToString(v)
    case Boolean(b) => if b then "true" else "false"
    case Null => "null"
  }

  /** Integer renderings never collide with the keyword-like renderings. */
  lemma IntegerRenderingIsNumeric(v: int)
    ensures |IntToString(v)| > 0
    ensures IntToString(v)[0] == '-' || IsDigit(IntToString(v)[0])
  {
    NatToStringIsCanonical(if v < 0 then -v else v);
  }

  /** Different values inspect differently. */
  lemma InspectInjective(a: Object, b: Object)
    requires Inspect(a) == Inspect(b)
    ensures a == b
  {
    if a.Integer? && b.Integer? {
    } else if a.Integer? {
      IntegerRenderingIsNumeric(a.value);
    } else if b.Integer? {
      IntegerRenderingIsNumeric(b.value);
    }
  }

  /** The name table of kinds. */
  function KindName(k: int): (r: string)
    requires 0 <= k < KindCount
    ensures r != ""
  {
    match k
    case 0 => "ILLEGAL"
    case 1 => "INTEGER"
    case 2 => "BOOLEAN"
    case _ => "NULL"
  }

  /** The name table has no repeated entry. */
  lemma KindNamesDistinct(a: int, b: int)
    requires 0 <= a < KindCount && 0 <= b < KindCount && a != b
    ensures KindName(a) != KindName(b)
  {
  }

  /** Renders a kind: its table name in range, `object(n)` otherwise. */
  function KindString(k: int): (r: string)
    ensures 0 <= k < KindCount ==> r == KindName(k)
    ensures !(0 <= k < KindCount) ==> |r| > 8 && r[..7] == "object(" && r[|r| - 1] == ')'
    ensures !(0 <= k < KindCount) ==> SignedValue(r[7..|r| - 1]) == Some(k)
  {
    var s := if 0 <= k < KindCount then KindName(k) else "";
    if s == "" then
      var t := "object(" + IntToString(k) + ")";
      IntToStringRoundTrip(k);
      assert t[7..|t| - 1] == IntToString(k);
      t
    else s
  }

  /** The three variants render as INTEGER, BOOLEAN and NULL. */
  lemma VariantKindNames(o: Object)
    ensures KindString(Kind(o)) == (match o case Integer(_) => "INTEGER" case Boolean(_) => "BOOLEAN" case Null => "NULL")
  {
  }
}

=== FILE: parser.dfy ===
/**
 * The parser: a two-token window (`current`, `peek`) over the scanner's
 * token stream and an append-only list of diagnostics. The scanner is
 * represented by the sequence of tokens it emits (`toks`, followed by
 * `EOF ""` forever) and `pos`, the index of the token it will emit next.
 *
 * The loops that skip to `;` run forever when no `;` remains, because the
 * scanner then returns EOF forever; that outcome is `Diverges`.
 */
module Parsing {
  import opened Wrappers
  import opened Decimal
  import opened Chars
  import opened Tokens
  import opened Ast

  /** Binding powers, declared by the source but not consulted by any handler. */
  const LOWEST: int := 1
  const EQUALITY: int := 2
  const COMPARE: int := 3
  const SUMMATION: int := 4
  const PRODUCT: int := 5
  const PREFIX: int := 6
  const INVOCATION: int := 7

  datatype Parser = Parser(toks: seq<Token>, pos: int, current: Token, peek: Token, errors: seq<string>)

  /** The result of a parse step that may loop forever. */
  datatype Run<T> = Halts(parser: Parser, value: T) | Diverges

  /**
   * The window invariant: `current` and `peek` are the two tokens before
   * `pos`; every token has the shape the scanner gives it.
   */
  predicate Valid(p: Parser) {
    && AllWellFormed(p.toks)
    && p.pos >= 2
    && p.current == TokenAt(p.toks, p.pos - 2)
    && p.peek == TokenAt(p.toks, p.pos - 1)
  }

  /** What a later parser state keeps: the stream, the position order, the old diagnostics. */
  predicate Extends(p: Parser, q: Parser) {
    q.toks == p.toks && p.pos <= q.pos && p.errors <= q.errors
  }

  /** `nextToken`: slide the window one token along the stream. */
  function NextToken(p: Parser): (r: Parser)
    ensures r.toks == p.toks && r.pos == p.pos + 1 && r.errors == p.errors
    ensures r.current == p.peek && r.peek == TokenAt(p.toks, p.pos)
    ensures Valid(p) ==> Valid(r)
  {
    p.(current := p.peek, peek := TokenAt(p.toks, p.pos), pos := p.pos + 1)
  }

  /** `New`: an empty window filled by two `nextToken` calls. */
  function New(toks: seq<Token>): (p: Parser)
    requires AllWellFormed(toks)
    ensures Valid(p) && p.toks == toks && p.errors == []
    ensures p.current == TokenAt(toks, 0) && p.peek == TokenAt(toks, 1)
  {
    var empty := Token(ILLEGAL, "");
    NextToken(NextToken(Parser(toks, 0, empty, empty, [])))
  }

  /** The `peekError` diagnostic: both kinds rendered by `KindString`, the expected one quoted. */
  function PeekErrorMessage(expected: int, received: int): (m: string)
    ensures |m| == 39 + |KindString(expected)| + |KindString(received)|
    ensures m[..27] == "expected next token to be '"
    ensures m[27..27 + |KindString(expected)|] == KindString(expected)
    ensures m[27 + |KindString(expected)|..39 + |KindString(expected)|] == "', received "
    ensures m[|m| - |KindString(received)|..] == KindString(received)
  {
    var prefix := "expected next token to be '";
    var sep := "', received ";
    var e := KindString(expected);
    var g := KindString(received);
    var m := prefix + (e + sep + g);
    assert |prefix| == 27 && |sep| == 12;
    assert m[..|prefix|] == prefix;
    assert m[|prefix|..|prefix| + |e|] == e;
    assert m[|prefix| + |e|..|prefix| + |e| + |sep|] == sep;
    assert m[|m| - |g|..] == g;
    m
  }

  /** `peekError`: records that `peek` was not of the expected kind. */
  function PeekError(p: Parser, t: int): (r: Parser)
    ensures r.toks == p.toks && r.pos == p.pos && r.current == p.current && r.peek == p.peek
    ensures |r.errors| == |p.errors| + 1 && p.errors <= r.errors
    ensures r.errors[|p.errors|] == PeekErrorMessage(t, p.peek.kind)
  {
    p.(errors := p.errors + [PeekErrorMessage(t, p.peek.kind)])
  }

  /**
   * `expectPeek`: on a match advance once and succeed; otherwise record
   * exactly one diagnostic and stay put.
   */
  function ExpectPeek(p: Parser, t: int): (r: (Parser, bool))
    ensures r.1 <==> p.peek.kind == t
    ensures r.1 ==> r.0 == NextToken(p) && r.0.current.kind == t
    ensures !r.1 ==> r.0 == PeekError(p, t)
  {
    if p.peek.kind == t then (NextToken(p), true) else (PeekError(p, t), false)
  }

  /** Index of the first `;` at or after index i of the stream, if any. */
  function FirstSemiFrom(toks: seq<Token>, i: int): (r: Option<int>)
    ensures r.Some? ==> 0 <= r.value && i <= r.value < |toks| && toks[r.value].kind == SEMI
    ensures r.Some? ==> forall k :: i <= k < r.value ==> TokenAt(toks, k).kind != SEMI
    ensures r.None? ==> forall k :: i <= k ==> TokenAt(toks, k).kind != SEMI
    decreases |toks| - i
  {
    if i >= |toks| then None
    else if TokenAt(toks, i).kind == SEMI then Some(i)
    else FirstSemiFrom(toks, i + 1)
  }

  /**
   * The `for !currentTokenIs(SEMI) { nextToken() }` loop: it stops on the
   * first `;` at or after `current`, and runs forever when there is none.
   */
  function SkipToSemi(p: Parser): (r: Run<()>)
    requires Valid(p)
    ensures r.Diverges? <==> FirstSemiFrom(p.toks, p.pos - 2).None?
    ensures r.Halts? ==> Valid(r.parser) && Extends(p, r.parser) && r.parser.errors == p.errors
    ensures r.Halts? ==> r.parser.current.kind == SEMI && r.parser.pos - 2 == FirstSemiFrom(p.toks, p.pos - 2).value
    decreases |p.toks| + 2 - p.pos
  {
    if p.current.kind == SEMI then Halts(p, ())
    else if p.pos - 2 >= |p.toks| then Diverges
    else SkipToSemi(NextToken(p))
  }

  /** The prefix handlers the parser registers: only for IDENT and INT. */
  datatype PrefixFn = ParseIdentifierFn | ParseIntegerLiteralFn

  function PrefixParseFn(kind: int): (r: Option<PrefixFn>)
    ensures r.Some? <==> kind == IDENT || kind == INT
  {
    if kind == IDENT then Some(ParseIdentifierFn)
    else if kind == INT then Some(ParseIntegerLiteralFn)
    else None
  }

  /** `parseIdentifier`: the identifier's value is its token's literal. */
  function ParseIdentifier(p: Parser): (e: Expression)
    ensures e.IdentifierExpr? && e.ident.token == p.current
    ensures e.ident.value == IdentifierTokenLiteral(e.ident)
  {
    IdentifierExpr(Identifier(p.current, p.current.literal))
  }

  /** Go's `%q` on a digit run: the run between double quotes. */
  function QuoteDigits(s: string): string
    requires IsDigits(s)
  {
    "\"" + s + "\""
  }

  /** The `parseIntegerLiteral` diagnostic: the literal quoted, between fixed words. */
  function IntegerErrorMessage(literal: string): (m: string)
    requires IsDigits(literal)
    ensures |m| == 29 + |literal|
    ensures m[..17] == "could not parse \""
    ensures m[17..17 + |literal|] == literal
    ensures m[17 + |literal|..] == "\" as integer"
  {
    "could not parse " + QuoteDigits(literal) + " as integer"
  }

  /** The diagnostic names the literal it could not parse. */
  lemma IntegerErrorMessageInjective(a: string, b: string)
    requires IsDigits(a) && IsDigits(b) && IntegerErrorMessage(a) == IntegerErrorMessage(b)
    ensures a == b
  {
    var m := IntegerErrorMessage(a);
    assert |a| == |b|;
    assert a == m[17..17 + |a|] == b;
  }

  /**
   * `parseIntegerLiteral`: `strconv.ParseInt(literal, 0, 64)`; on failure
   * one diagnostic and a nil expression.
   */
  function ParseIntegerLiteral(p: Parser): (r: (Parser, Option<Expression>))
    requires Valid(p) && p.current.kind == INT
    ensures var lit := p.current.literal;
            |lit| > 0 && IsDigits(lit) &&
            match ParseInt(lit)
            case Some(v) => r == (p, Some(IntegerLiteral(p.current, v)))
            case None => r == (p.(errors := p.errors + [IntegerErrorMessage(lit)]), None)
  {
    var lit := p.current.literal;
    assert WellFormed(p.current);
    var value := ParseInt(lit);
    if value.None? then
      (p.(errors := p.errors + [IntegerErrorMessage(lit)]), None)
    else
      (p, Some(IntegerLiteral(p.current, value.value)))
  }

  /**
   * `parseExpression`: the prefix handler for `current`, or nil without a
   * diagnostic when none is registered. There are no infix handlers, and
   * the precedence argument is not consulted.
   */
  function ParseExpression(p: Parser, precedence: int): (r: (Parser, Option<Expression>))
    requires Valid(p)
    ensures r.0.toks == p.toks && r.0.pos == p.pos && r.0.current == p.current && r.0.peek == p.peek
    ensures PrefixParseFn(p.current.kind).None? ==> r == (p, None)
    ensures p.current.kind == IDENT ==> r == (p, Some(ParseIdentifier(p)))
    ensures p.current.kind == INT ==> r == ParseIntegerLiteral(p)
    ensures r.1.Some? ==> r.1.value.IdentifierExpr? || r.1.value.IntegerLiteral?
    ensures r.1.Some? ==> r.0 == p
    ensures r.1.None? ==> r.0.errors == p.errors || |r.0.errors| == |p.errors| + 1
    ensures p.errors <= r.0.errors
  {
    match PrefixParseFn(p.current.kind)
    case None => (p, None)
    case Some(ParseIdentifierFn) => (p, Some(ParseIdentifier(p)))
    case Some(ParseIntegerLiteralFn) => ParseIntegerLiteral(p)
  }

  /** `parseExpressionStatement`: an expression, then a `;` only if one follows. */
  function ParseExpressionStatement(p: Parser): (r: (Parser, Statement))
    requires Valid(p)
    ensures Valid(r.0) && Extends(p, r.0)
    ensures r.1.ExpressionStatement? && r.1.token == p.current
    ensures r.1.expression == ParseExpression(p, LOWEST).1
    ensures r.0.errors == ParseExpression(p, LOWEST).0.errors
    ensures r.0.pos == if p.peek.kind == SEMI then p.pos + 1 else p.pos
  {
    var (q, e) := ParseExpression(p, LOWEST);
    var stmt := ExpressionStatement(p.current, e);
    if q.peek.kind == SEMI then (NextToken(q), stmt) else (q, stmt)
  }

  /**
   * `parseTypeDeclaration`: `type`, an identifier, `==`, then everything
   * up to `;` is skipped and `value` is never set. When either expected
   * token is missing it records one diagnostic and yields nil.
   */
  function ParseTypeDeclaration(p: Parser): (r: Run<Option<Statement>>)
    requires Valid(p)
    ensures r.Halts? ==> Valid(r.parser) && Extends(p, r.parser)
    ensures r.Halts? && r.value.Some? <==>
              p.peek.kind == IDENT && TokenAt(p.toks, p.pos).kind == EQL
              && FirstSemiFrom(p.toks, p.pos).Some?
    ensures r.Diverges? <==>
              p.peek.kind == IDENT && TokenAt(p.toks, p.pos).kind == EQL
              && FirstSemiFrom(p.toks, p.pos).None?
    ensures r.Halts? && r.value.Some? ==>
              && r.value.value == TypeDeclarationStatement(p.current, Identifier(p.peek, p.peek.literal), None)
              && r.parser.current.kind == SEMI
              && r.parser.errors == p.errors
    ensures r.Halts? && r.value.Some? ==> r.parser.pos - 2 == FirstSemiFrom(p.toks, p.pos).value
    ensures r.Halts? && r.value.None? ==> |r.parser.errors| == |p.errors| + 1
    ensures r.Halts? && r.value.None? ==>
              if p.peek.kind != IDENT then r.parser == PeekError(p, IDENT)
              else r.parser == PeekError(NextToken(p), EQL)
  {
    var token := p.current;
    var (p1, ok1) := ExpectPeek(p, IDENT);
    if !ok1 then Halts(p1, None)
    else ParseTypeDeclarationAfterName(p1, token)
  }

  /**
   * The rest of `parseTypeDeclaration` once the name is current: `==`,
   * then everything up to the first `;`.
   */
  function ParseTypeDeclarationAfterName(p1: Parser, token: Token): (r: Run<Option<Statement>>)
    requires Valid(p1)
    ensures r.Halts? ==> Valid(r.parser) && Extends(p1, r.parser)
    ensures r.Halts? && r.value.Some? <==> p1.peek.kind == EQL && FirstSemiFrom(p1.toks, p1.pos - 1).Some?
    ensures r.Diverges? <==> p1.peek.kind == EQL && FirstSemiFrom(p1.toks, p1.pos - 1).None?
    ensures r.Halts? && r.value.Some? ==>
              && r.value.value == TypeDeclarationStatement(token, Identifier(p1.current, p1.current.literal), None)
              && r.parser.current.kind == SEMI
              && r.parser.errors == p1.errors
              && r.parser.pos - 2 == FirstSemiFrom(p1.toks, p1.pos - 1).value
    ensures r.Halts? && r.value.None? ==> r.parser == PeekError(p1, EQL)
  {
    var name := Identifier(p1.current, p1.current.literal);
    var (p2, ok2) := ExpectPeek(p1, EQL);
    if !ok2 then Halts(p2, None)
    else
      match SkipToSemi(p2)
      case Diverges => Diverges
      case Halts(p3, _) => Halts(p3, Some(TypeDeclarationStatement(token, name, None)))
  }

  /** `parseReturnStatement`: skips past `return` and then up to `;`. */
  function ParseReturnStatement(p: Parser): (r: Run<Statement>)
    requires Valid(p)
    ensures r.Diverges? <==> FirstSemiFrom(p.toks, p.pos - 1).None?
    ensures r.Halts? ==> Valid(r.parser) && Extends(p, r.parser) && p.pos < r.parser.pos
    ensures r.Halts? ==> r.value == ReturnStatement(p.current)
    ensures r.Halts? ==> r.parser.current.kind == SEMI && r.parser.errors == p.errors
    ensures r.Halts? ==> r.parser.pos - 2 == FirstSemiFrom(p.toks, p.pos - 1).value
  {
    var token := p.current;
    match SkipToSemi(NextToken(p))
    case Diverges => Diverges
    case Halts(q, _) => Halts(q, ReturnStatement(token))
  }

  /**
   * `parseStatement`: dispatch on the current kind. `None` is the nil
   * `*TypeDeclarationStatement` a failed type declaration returns.
   */
  function ParseStatement(p: Parser): (r: Run<Option<Statement>>)
    requires Valid(p)
    ensures r.Halts? ==> Valid(r.parser) && Extends(p, r.parser)
    ensures p.current.kind == TYPE ==> r == ParseTypeDeclaration(p)
    ensures p.current.kind == TYPE && r.Halts? && r.value.Some? ==> r.value.value.TypeDeclarationStatement?
    ensures p.current.kind == RETURN ==> r.Halts? == ParseReturnStatement(p).Halts?
    ensures p.current.kind == RETURN && r.Halts? ==> r.value == Some(ReturnStatement(p.current))
    ensures p.current.kind == RETURN ==>
              r == match ParseReturnStatement(p) case Diverges => Diverges case Halts(q, s) => Halts(q, Some(s))
    ensures p.current.kind != TYPE && p.current.kind != RETURN ==>
              r == Halts(ParseExpressionStatement(p).0, Some(ParseExpressionStatement(p).1))
    ensures p.current.kind != TYPE && p.current.kind != RETURN ==>
              r.Halts? && r.value.Some? && r.value.value.ExpressionStatement?
    ensures r.Halts? && r.value.None? ==> p.current.kind == TYPE
    ensures r.Halts? && r.value.Some? ==> r.value.value.token == p.current
  {
    if p.current.kind == TYPE then ParseTypeDeclaration(p)
    else if p.current.kind == RETURN then
      match ParseReturnStatement(p)
      case Diverges => Diverges
      case Halts(q, s) => Halts(q, Some(s))
    else
      var (q, s) := ParseExpressionStatement(p);
      Halts(q, Some(s))
  }

  /** The present values of a sequence of options, in order. */
  function Present<T>(xs: seq<Option<T>>): (r: seq<T>)
    ensures |r| <= |xs|
  {
    if |xs| == 0 then []
    else (if xs[0].Some? then [xs[0].value] else []) + Present(xs[1..])
  }

  /**
   * The `ParseProgram` loop from parser state p: while `current` is not
   * EOF, parse a statement, keep it when it is not nil, and advance one
   * token. `acc` holds the statements kept so far.
   */
  function ParseProgramFrom(p: Parser, acc: seq<Statement>): (r: Run<seq<Statement>>)
    requires Valid(p)
    ensures r.Halts? ==> Valid(r.parser) && Extends(p, r.parser) && r.parser.current.kind == EOF
    ensures r.Halts? ==> acc <= r.value
    decreases |p.toks| + 2 - p.pos
  {
    if p.current.kind == EOF then Halts(p, acc)
    else
      match ParseStatement(p)
      case Diverges => Diverges
      case Halts(q, stmt) =>
        var acc' := if stmt.Some? then acc + [stmt.value] else acc;
        ParseProgramFrom(NextToken(q), acc')
  }

  /**
   * `ParseProgram` with the intended nil check: a failed type declaration
   * adds no statement. `ParseProgramAsWrittenFrom` keeps the nil slots the
   * Go loop keeps.
   */
  function ParseProgram(p: Parser): (r: Run<Program>)
    requires Valid(p)
    ensures r.Halts? ==> Valid(r.parser) && Extends(p, r.parser) && r.parser.current.kind == EOF
  {
    match ParseProgramFrom(p, [])
    case Diverges => Diverges
    case Halts(q, stmts) => Halts(q, Program(stmts))
  }

  /**
   * The `ParseProgram` loop as the source has it. `parseStatement` returns
   * the `*TypeDeclarationStatement` of a failed declaration as a non-nil
   * `ast.Statement` interface holding a nil pointer, so the `stmt != nil`
   * test never fails and every slot, `None` included, is appended.
   */
  function ParseProgramAsWrittenFrom(p: Parser, acc: seq<Option<Statement>>): (r: Run<seq<Option<Statement>>>)
    requires Valid(p)
    ensures r.Halts? ==> Valid(r.parser) && Extends(p, r.parser) && r.parser.current.kind == EOF
    ensures r.Halts? ==> acc <= r.value
    decreases |p.toks| + 2 - p.pos
  {
    if p.current.kind == EOF then Halts(p, acc)
    else
      match ParseStatement(p)
      case Diverges => Diverges
      case Halts(q, stmt) => ParseProgramAsWrittenFrom(NextToken(q), acc + [stmt])
  }
}

=== FILE: parser_properties.dfy ===
/** Properties of whole parses: the nil-statement defect, halting, and the shape of the tree. */
module ParserProperties {
  import opened Wrappers
  import opened Tokens
  import opened Ast
  import opened Parsing

  lemma PresentAppend<T>(xs: seq<Option<T>>, x: Option<T>)
    ensures Present(xs + [x]) == Present(xs) + (if x.Some? then [x.value] else [])
  {
    if |xs| > 0 {
      assert (xs + [x])[1..] == xs[1..] + [x];
      PresentAppend(xs[1..], x);
    }
  }

  /** A present last slot is the last element of `Present`. */
  lemma PresentLast<T>(xs: seq<Option<T>>)
    requires |xs| > 0 && xs[|xs| - 1].Some?
    ensures |Present(xs)| > 0 && Present(xs)[|Present(xs)| - 1] == xs[|xs| - 1].value
  {
    var n := |xs|;
    assert xs == xs[..n - 1] + [xs[n - 1]];
    PresentAppend(xs[..n - 1], xs[n - 1]);
  }

  /**
   * The corrected loop keeps exactly the non-nil statements of the loop as
   * written, in the same order, and ends in the same parser state.
   */
  lemma {:induction false} CorrectedDropsNilSlots(p: Parser, slots: seq<Option<Statement>>)
    requires Valid(p)
    ensures var w := ParseProgramAsWrittenFrom(p, slots);
            var c := ParseProgramFrom(p, Present(slots));
            && (w.Halts? <==> c.Halts?)
            && (w.Halts? ==> c.parser == w.parser && c.value == Present(w.value))
    decreases |p.toks| + 2 - p.pos
  {
    if p.current.kind != EOF {
      var r := ParseStatement(p);
      if r.Halts? {
        var q := NextToken(r.parser);
        PresentAppend(slots, r.value);
        CorrectedDropsNilSlots(q, slots + [r.value]);
        assert ParseProgramAsWrittenFrom(p, slots) == ParseProgramAsWrittenFrom(q, slots + [r.value]);
        var acc := if r.value.Some? then Present(slots) + [r.value.value] else Present(slots);
        assert acc == Present(slots + [r.value]) by {
          if r.value.None? {
            assert Present(slots) + [] == Present(slots);
          }
        }
        assert ParseProgramFrom(p, Present(slots)) == ParseProgramFrom(q, acc);
      }
    }
  }

  /**
   * A lone `type` shows the defect: the declaration fails, and the loop as
   * written still appends a nil statement, which the corrected loop drops.
   */
  lemma NilTypeDeclarationIsKept()
    ensures AllWellFormed([Token(TYPE, "type")])
    ensures var p := New([Token(TYPE, "type")]);
            && ParseProgramAsWrittenFrom(p, []).Halts?
            && ParseProgramAsWrittenFrom(p, []).value == [None]
            && ParseProgram(p).Halts? && ParseProgram(p).value.statements == []
            && SlotsTokenLiteral(ParseProgramAsWrittenFrom(p, []).value).None?
  {
    var toks := [Token(TYPE, "type")];
    assert WellFormed(toks[0]);
    var p := New(toks);
    var q := ParseStatement(p).parser;
    assert ParseStatement(p) == Halts(q, None);
    assert NextToken(q).current.kind == EOF;
    assert ParseProgramFrom(p, []) == ParseProgramFrom(NextToken(q), []) == Halts(NextToken(q), []);
  }

  /**
   * `Program.TokenLiteral` on the slots as written agrees with the
   * corrected program whenever the first slot is not nil.
   */
  lemma SlotsLiteralMatchesCorrected(slots: seq<Option<Statement>>)
    requires |slots| > 0 && slots[0].Some?
    ensures SlotsTokenLiteral(slots) == Some(ProgramTokenLiteral(Program(Present(slots))))
  {
    assert Present(slots) == [slots[0].value] + Present(slots[1..]);
  }

  /**
   * When the first token starts a statement that is never nil, a halted
   * parse reports that token's literal, in both loops.
   */
  lemma ProgramLiteralIsFirstToken(toks: seq<Token>)
    requires AllWellFormed(toks)
    requires TokenAt(toks, 0).kind != EOF && TokenAt(toks, 0).kind != TYPE
    ensures var r := ParseProgram(New(toks));
            r.Halts? ==> ProgramTokenLiteral(r.value) == TokenAt(toks, 0).literal
    ensures var w := ParseProgramAsWrittenFrom(New(toks), []);
            w.Halts? ==> SlotsTokenLiteral(w.value) == Some(TokenAt(toks, 0).literal)
  {
    var p := New(toks);
    var r := ParseStatement(p);
    if r.Halts? {
      var q := NextToken(r.parser);
      assert ParseProgramFrom(p, []) == ParseProgramFrom(q, [] + [r.value.value]);
      assert ParseProgramAsWrittenFrom(p, []) == ParseProgramAsWrittenFrom(q, [] + [r.value]);
    }
  }

  /**
   * With `type` first, `TokenLiteral` on the program as written reports
   * `type` when the declaration succeeds and dereferences nil when it fails.
   */
  lemma FirstDeclarationLiteral(toks: seq<Token>)
    requires AllWellFormed(toks) && TokenAt(toks, 0).kind == TYPE
    ensures var w := ParseProgramAsWrittenFrom(New(toks), []);
            var d := ParseTypeDeclaration(New(toks));
            w.Halts? ==> d.Halts? && SlotsTokenLiteral(w.value) == if d.value.Some? then Some("type") else None
  {
    var p := New(toks);
    assert WellFormed(TokenAt(toks, 0));
    var r := ParseStatement(p);
    if r.Halts? {
      var q := NextToken(r.parser);
      assert ParseProgramAsWrittenFrom(p, []) == ParseProgramAsWrittenFrom(q, [] + [r.value]);
    }
  }

  /** Every `type` and `return` token has a `;` somewhere after it. */
  predicate SemiFollowsEveryKeyword(toks: seq<Token>) {
    forall i :: 0 <= i < |toks| && (toks[i].kind == TYPE || toks[i].kind == RETURN) ==>
      FirstSemiFrom(toks, i + 1).Some?
  }

  lemma FirstSemiMonotone(toks: seq<Token>, i: int, j: int)
    requires i <= j && FirstSemiFrom(toks, i).Some? && FirstSemiFrom(toks, i).value >= j
    ensures FirstSemiFrom(toks, j) == FirstSemiFrom(toks, i)
    decreases j - i
  {
    if i < j {
      FirstSemiMonotone(toks, i + 1, j);
    }
  }

  /** Under that condition no statement loops. */
  lemma StatementHalts(p: Parser)
    requires Valid(p) && SemiFollowsEveryKeyword(p.toks)
    ensures ParseStatement(p).Halts?
  {
    var i := p.pos - 2;
    if p.current.kind == TYPE && p.peek.kind == IDENT && TokenAt(p.toks, p.pos).kind == EQL {
      assert p.toks[i].kind == TYPE;
      FirstSemiMonotone(p.toks, i + 1, p.pos);
    } else if p.current.kind == RETURN {
      assert p.toks[i].kind == RETURN;
    }
  }

  /**
   * Parsing halts whenever every `type` and `return` token is followed by a
   * `;`: divergence comes only from the skip-to-`;` loops.
   */
  lemma {:induction false} ParseHalts(p: Parser, acc: seq<Statement>)
    requires Valid(p) && SemiFollowsEveryKeyword(p.toks)
    ensures ParseProgramFrom(p, acc).Halts?
    decreases |p.toks| + 2 - p.pos
  {
    if p.current.kind != EOF {
      StatementHalts(p);
      var q := ParseStatement(p).parser;
      var stmt := ParseStatement(p).value;
      ParseHalts(NextToken(q), if stmt.Some? then acc + [stmt.value] else acc);
    }
  }

  /**
   * The statements the parser can build: a type declaration without a
   * value, a return statement, or an expression statement whose expression
   * is nil, an identifier or an integer literal (never a boolean).
   */
  predicate Parsed(s: Statement) {
    match s
    case TypeDeclarationStatement(_, name, value) => value.None? && name.value == name.token.literal
    case ReturnStatement(_) => true
    case ExpressionStatement(_, e) => e.None? || e.value.IdentifierExpr? || e.value.IntegerLiteral?
  }

  predicate AllParsed(stmts: seq<Statement>) {
    forall i :: 0 <= i < |stmts| ==> Parsed(stmts[i])
  }

  lemma StatementParsed(p: Parser)
    requires Valid(p) && ParseStatement(p).Halts? && ParseStatement(p).value.Some?
    ensures Parsed(ParseStatement(p).value.value)
  {
  }

  lemma {:induction false} ProgramParsed(p: Parser, acc: seq<Statement>)
    requires Valid(p) && AllParsed(acc)
    ensures ParseProgramFrom(p, acc).Halts? ==> AllParsed(ParseProgramFrom(p, acc).value)
    decreases |p.toks| + 2 - p.pos
  {
    if p.current.kind != EOF {
      var r := ParseStatement(p);
      if r.Halts? {
        if r.value.Some? {
          StatementParsed(p);
        }
        ProgramParsed(NextToken(r.parser), if r.value.Some? then acc + [r.value.value] else acc);
      }
    }
  }

  /** A parsed type declaration reports the `type` keyword's literal. */
  lemma TypeDeclarationLiteral(p: Parser)
    requires Valid(p) && p.current.kind == TYPE
    requires ParseTypeDeclaration(p).Halts? && ParseTypeDeclaration(p).value.Some?
    ensures StatementTokenLiteral(ParseTypeDeclaration(p).value.value) == "type"
    ensures IdentifierTokenLiteral(ParseTypeDeclaration(p).value.value.name) == ParseTypeDeclaration(p).value.value.name.value
  {
    assert WellFormed(TokenAt(p.toks, p.pos - 2));
  }

  /**
   * Every statement the parser builds reports the literal of the token it
   * started on; a declaration's name reports the identifier after `type`.
   */
  lemma StatementLiteralIsStartToken(p: Parser)
    requires Valid(p)
    ensures var r := ParseStatement(p);
            r.Halts? && r.value.Some? ==>
              && StatementTokenLiteral(r.value.value) == p.current.literal
              && (r.value.value.TypeDeclarationStatement? ==> IdentifierTokenLiteral(r.value.value.name) == p.peek.literal)
  {
  }

  lemma StripPrefix(p: string, x: string, y: string)
    requires p + x == p + y
    ensures x == y
  {
    assert x == (p + x)[|p|..];
    assert y == (p + y)[|p|..];
  }

  /** The position of the first single quote in s, or |s| when there is none. */
  function QuoteIndex(s: string): nat {
    if |s| == 0 || s[0] == '\'' then 0 else 1 + QuoteIndex(s[1..])
  }

  lemma {:induction false} QuoteIndexAfterWord(w: string, rest: string)
    requires '\'' !in w && |rest| > 0 && rest[0] == '\''
    ensures QuoteIndex(w + rest) == |w|
    decreases |w|
  {
    if |w| > 0 {
      assert (w + rest)[0] == w[0];
      assert (w + rest)[1..] == w[1..] + rest;
      QuoteIndexAfterWord(w[1..], rest);
    } else {
      assert w + rest == rest;
    }
  }

  /** Two quote-free words followed by the same quote-led separator split the same way. */
  lemma SplitAtQuote(ka: string, kb: string, kc: string, kd: string, q: string)
    requires '\'' !in ka && '\'' !in kc && |q| > 0 && q[0] == '\''
    requires ka + q + kb == kc + q + kd
    ensures ka == kc && kb == kd
  {
    var x := ka + q + kb;
    assert x == ka + (q + kb) && x == kc + (q + kd);
    QuoteIndexAfterWord(ka, q + kb);
    QuoteIndexAfterWord(kc, q + kd);
    assert ka == x[..|ka|] == kc;
    assert kb == x[|ka| + |q|..] == kd;
  }

  /**
   * The diagnostic names its kinds unambiguously: different (expected,
   * received) pairs give different messages.
   */
  lemma PeekErrorMessageInjective(a: int, b: int, c: int, d: int)
    requires PeekErrorMessage(a, b) == PeekErrorMessage(c, d)
    ensures a == c && b == d
  {
    var ka, kb, kc, kd := KindString(a), KindString(b), KindString(c), KindString(d);
    var p := "expected next token to be '";
    var q := "', received ";
    assert PeekErrorMessage(a, b) == p + (ka + q + kb);
    assert PeekErrorMessage(c, d) == p + (kc + q + kd);
    StripPrefix(p, ka + q + kb, kc + q + kd);
    KindStringHasNoQuote(a);
    KindStringHasNoQuote(c);
    SplitAtQuote(ka, kb, kc, kd, q);
    KindStringInjective(a, c);
    KindStringInjective(b, d);
  }
}

=== FILE: pipeline.dfy ===
/**
 * The pipeline end to end: scanner tokens into the parser, the parsed
 * program into the evaluator. Includes the inputs on which the code's
 * behaviour differs from what its tests expect.
 */
module Pipeline {
  import opened Wrappers
  import opened Decimal
  import opened Tokens
  import Lexer
  import LexerProperties
  import opened Ast
  import opened Parsing
  import ParserProperties
  import Objects
  import Chars
  import opened Evaluator

  /** The tokens the scanner produces for an ASCII source text. */
  function Scan(input: string): (toks: seq<Token>)
    requires Chars.IsAscii(input)
    ensures AllWellFormed(toks)
  {
    LexerProperties.TokenizeWellFormed(Lexer.New(input));
    LexerProperties.Tokenize(Lexer.New(input))
  }

  /** A lone `=` scans as ASSIGN, where the scanner's test expects EQL. */
  lemma LoneEqualsIsAssign()
    ensures Scan("=") == [Token(ASSIGN, "=")]
  {
    var s := Lexer.New("=");
    LexerProperties.EqualsToken(s);
    var next := Lexer.NextToken(s).0;
    assert next.head == 1;
  }

  /** The diagnostic `expectPeek` records when `==` is wanted and `=` is found. */
  lemma EqlAssignMessage()
    ensures PeekErrorMessage(EQL, ASSIGN) == "expected next token to be '==', received ="
  {
    assert Name(EQL) == "==" && Name(ASSIGN) == "=";
    assert IsNamed(EQL) && IsNamed(ASSIGN);
  }

  /**
   * The parser wants `==` after a type name, but the scanner gives `=` the
   * kind ASSIGN: `type X = R;` records one diagnostic and no declaration.
   */
  lemma TypeDeclarationWithAssignFails()
    ensures var toks := [Token(TYPE, "type"), Token(IDENT, "X"), Token(ASSIGN, "="), Token(IDENT, "R"), Token(SEMI, ";")];
            AllWellFormed(toks) &&
            var r := ParseTypeDeclaration(New(toks));
            && r.Halts? && r.value.None?
            && r.parser.errors == ["expected next token to be '==', received ="]
  {
    var toks := [Token(TYPE, "type"), Token(IDENT, "X"), Token(ASSIGN, "="), Token(IDENT, "R"), Token(SEMI, ";")];
    assert WellFormed(toks[0]) && WellFormed(toks[1]) && WellFormed(toks[2]) && WellFormed(toks[3]) && WellFormed(toks[4]);
    var p := New(toks);
    var p1 := NextToken(p);
    assert ExpectPeek(p, IDENT) == (p1, true);
    assert p1.peek == Token(ASSIGN, "=");
    assert ExpectPeek(p1, EQL) == (PeekError(p1, EQL), false);
    assert ParseTypeDeclaration(p) == Halts(PeekError(p1, EQL), None);
    EqlAssignMessage();
  }

  /**
   * No prefix handler exists for `!` or `-`: `!5;` is two expression
   * statements, a nil one and the literal 5, with no diagnostic.
   */
  lemma BangHasNoPrefixHandler()
    ensures var toks := [Token(BANG, "!"), Token(INT, "5"), Token(SEMI, ";")];
            AllWellFormed(toks) &&
            var r := ParseProgram(New(toks));
            && r.Halts? && r.parser.errors == []
            && r.value.statements == [
                 ExpressionStatement(Token(BANG, "!"), None),
                 ExpressionStatement(Token(INT, "5"), Some(IntegerLiteral(Token(INT, "5"), 5)))]
  {
    var toks := [Token(BANG, "!"), Token(INT, "5"), Token(SEMI, ";")];
    assert WellFormed(toks[0]) && WellFormed(toks[1]) && WellFormed(toks[2]);
    var s1 := ExpressionStatement(Token(BANG, "!"), None);
    var s2 := ExpressionStatement(Token(INT, "5"), Some(IntegerLiteral(Token(INT, "5"), 5)));
    var p := New(toks);
    assert ParseStatement(p) == Halts(p, Some(s1));
    var p2 := NextToken(p);
    assert p2.current == Token(INT, "5") && p2.peek.kind == SEMI;
    assert ParseInt("5") == Some(5) by {
      assert "5"[..0] == "";
    }
    var p3 := NextToken(p2);
    assert ParseStatement(p2) == Halts(p3, Some(s2));
    var p4 := NextToken(p3);
    assert p4.current.kind == EOF;
    assert ParseProgramFrom(p4, [s1, s2]) == Halts(p4, [s1, s2]);
    assert ParseProgramFrom(p2, [s1]) == ParseProgramFrom(p4, [s1] + [s2]);
    assert ParseProgramFrom(p, []) == ParseProgramFrom(p2, [] + [s1]);
  }

  /** Every value a parsed program can produce is nil or an integer, never a boolean. */
  lemma ParsedProgramsYieldNoBooleans(prog: Program)
    requires ParserProperties.AllParsed(prog.statements)
    ensures var r := Eval(ProgramNode(prog)); r.None? || r.value.Integer?
  {
    EvalProgram(prog);
    if |prog.statements| > 0 {
      assert ParserProperties.Parsed(prog.statements[|prog.statements| - 1]);
    }
  }

  /**
   * For any ASCII text, a parse that halts yields a program that evaluates
   * to nil or to an integer: no text evaluates to a boolean. This holds for
   * the slots the loop as written keeps and for the corrected loop alike.
   */
  lemma NoTextEvaluatesToBoolean(input: string)
    requires Chars.IsAscii(input)
    ensures var r := ParseProgram(New(Scan(input)));
            r.Halts? ==> var v := Eval(ProgramNode(r.value)); v.None? || v.value.Integer?
    ensures var w := ParseProgramAsWrittenFrom(New(Scan(input)), []);
            w.Halts? ==> var v := EvalSlots(w.value, 0, None); v.None? || v.value.Integer?
  {
    var p := New(Scan(input));
    ParserProperties.ProgramParsed(p, []);
    var r := ParseProgram(p);
    if r.Halts? {
      ParsedProgramsYieldNoBooleans(r.value);
    }
    SlotsYieldNoBooleans(p);
  }

  /** The slots the loop as written keeps evaluate to nil or to an integer. */
  lemma SlotsYieldNoBooleans(p: Parser)
    requires Valid(p)
    ensures var w := ParseProgramAsWrittenFrom(p, []);
            w.Halts? ==> var v := EvalSlots(w.value, 0, None); v.None? || v.value.Integer?
  {
    var w := ParseProgramAsWrittenFrom(p, []);
    ParserProperties.CorrectedDropsNilSlots(p, []);
    assert Present<Statement>([]) == [];
    if w.Halts? && |w.value| > 0 && w.value[|w.value| - 1].Some? {
      var c := ParseProgramFrom(p, []);
      ParserProperties.ProgramParsed(p, []);
      assert c.Halts? && c.value == Present(w.value);
      ParsedProgramsYieldNoBooleans(Program(c.value));
      SlotsEvaluateLikePresent(w.value);
    }
  }

  /**
   * When the last slot holds a statement, the program as written and the
   * program of its present statements evaluate to the same value.
   */
  lemma SlotsEvaluateLikePresent(slots: seq<Option<Statement>>)
    requires |slots| > 0 && slots[|slots| - 1].Some?
    ensures EvalSlots(slots, 0, None) == Eval(ProgramNode(Program(Present(slots))))
  {
    ParserProperties.PresentLast(slots);
    EvalProgram(Program(Present(slots)));
  }

  /**
   * A trailing `type` with nothing after it leaves a nil slot last, so
   * `5; type` evaluates to nil as written; dropping nil slots would give 5.
   */
  lemma TrailingDeclarationHidesValue()
    ensures var toks := [Token(INT, "5"), Token(SEMI, ";"), Token(TYPE, "type")];
            AllWellFormed(toks) &&
            var w := ParseProgramAsWrittenFrom(New(toks), []);
            var c := ParseProgram(New(toks));
            && w.Halts? && c.Halts?
            && EvalSlots(w.value, 0, None).None?
            && Eval(ProgramNode(c.value)) == Some(Objects.Integer(5))
  {
    var toks := [Token(INT, "5"), Token(SEMI, ";"), Token(TYPE, "type")];
    assert WellFormed(toks[0]) && WellFormed(toks[1]) && WellFormed(toks[2]);
    var s1 := ExpressionStatement(Token(INT, "5"), Some(IntegerLiteral(Token(INT, "5"), 5)));
    var p := New(toks);
    assert p.current == Token(INT, "5") && p.peek.kind == SEMI;
    assert ParseInt("5") == Some(5) by {
      assert "5"[..0] == "";
    }
    var p2 := NextToken(p);
    assert ParseStatement(p) == Halts(p2, Some(s1));
    var p3 := NextToken(p2);
    assert p3.current.kind == TYPE && p3.peek.kind == EOF;
    var p4 := PeekError(p3, IDENT);
    assert ExpectPeek(p3, IDENT) == (p4, false);
    assert ParseStatement(p3) == Halts(p4, None);
    var p5 := NextToken(p4);
    assert p5.current.kind == EOF;
    assert ParseProgramAsWrittenFrom(p5, [Some(s1), None]) == Halts(p5, [Some(s1), None]);
    assert ParseProgramAsWrittenFrom(p3, [Some(s1)]) == ParseProgramAsWrittenFrom(p5, [Some(s1)] + [None]);
    assert ParseProgramAsWrittenFrom(p, []) == ParseProgramAsWrittenFrom(p3, [] + [Some(s1)]);
    assert ParseProgramFrom(p5, [s1]) == Halts(p5, [s1]);
    assert ParseProgramFrom(p3, [s1]) == ParseProgramFrom(p5, [s1]);
    assert ParseProgramFrom(p, []) == ParseProgramFrom(p3, [] + [s1]);
    assert [] + [s1] == [s1];
    assert ParseProgram(p) == Halts(p5, Program([s1]));
    EvalProgram(Program([s1]));
    EvalExpressionStatement(s1.token, s1.expression);
  }

  /** Parsing `true` gives a nil expression, so it evaluates to nil, not to TRUE. */
  lemma TrueEvaluatesToNil()
    ensures var toks := [Token(Tokens.TRUE, "true")];
            AllWellFormed(toks) &&
            var r := ParseProgram(New(toks));
            r.Halts? && Eval(ProgramNode(r.value)).None?
  {
    var toks := [Token(Tokens.TRUE, "true")];
    assert WellFormed(toks[0]);
    var stmt := ExpressionStatement(Token(Tokens.TRUE, "true"), None);
    var p := New(toks);
    assert ParseStatement(p) == Halts(p, Some(stmt));
    var q := NextToken(p);
    assert q.current.kind == EOF;
    assert ParseProgramFrom(q, [stmt]) == Halts(q, [stmt]);
    assert ParseProgramFrom(p, []) == ParseProgramFrom(q, [] + [stmt]);
    assert [] + [stmt] == [stmt];
    assert ParseProgram(p) == Halts(q, Program([stmt]));
    EvalProgram(Program([stmt]));
    EvalExpressionStatement(stmt.token, stmt.expression);
  }

  /**
   * A canonical decimal literal that fits in an int64 evaluates to the
   * integer it denotes, and inspecting that value gives the literal back.
   */
  lemma IntegerLiteralRoundTrip(s: string)
    requires IsCanonical(s) && DigitsValue(s, 10) <= MaxInt64
    ensures AllWellFormed([Token(INT, s)])
    ensures var r := ParseProgram(New([Token(INT, s)]));
            && r.Halts? && r.parser.errors == []
            && Eval(ProgramNode(r.value)) == Some(Objects.Integer(DigitsValue(s, 10)))
            && Objects.Inspect(Eval(ProgramNode(r.value)).value) == s
  {
    var toks := [Token(INT, s)];
    assert WellFormed(toks[0]);
    var p := New(toks);
    var v := DigitsValue(s, 10);
    assert ParseInt(s) == Some(v) by {
      if s[0] == '0' {
        assert s == "0";
      }
    }
    var stmt := ExpressionStatement(Token(INT, s), Some(IntegerLiteral(Token(INT, s), v)));
    assert ParseIntegerLiteral(p) == (p, Some(IntegerLiteral(Token(INT, s), v)));
    assert ParseStatement(p) == Halts(p, Some(stmt));
    var q := NextToken(p);
    assert q.current.kind == EOF;
    assert ParseProgramFrom(q, [stmt]) == Halts(q, [stmt]);
    assert ParseProgramFrom(p, []) == ParseProgramFrom(q, [] + [stmt]);
    assert [] + [stmt] == [stmt];
    assert ParseProgram(p) == Halts(q, Program([stmt]));
    EvalProgram(Program([stmt]));
    EvalExpressionStatement(stmt.token, stmt.expression);
    CanonicalRoundTrip(s);
  }
}

=== FILE: tokens.dfy ===
/**
 * Token kinds, their name table, the kind-to-text rendering and the
 * keyword lookup built by inverting the keyword slice of the name table.
 * A kind is a plain integer, as Go's `TokenKind int` is, so the rendering
 * is total over every integer.
 */
module Tokens {
  import opened Wrappers
  import opened Decimal
  import opened Chars

  const ILLEGAL: int := 0
  const EOF: int := 1
  const TRIVIA: int := 2
  const COMMENT: int := 3
  const IDENT: int := 4
  const INT: int := 5
  const LBRACK: int := 6
  const RBRACK: int := 7
  const LBRACE: int := 8
  const RBRACE: int := 9
  const LPAREN: int := 10
  const RPAREN: int := 11
  const LCHEV: int := 12
  const RCHEV: int := 13
  const COMMA: int := 14
  const DOT: int := 15
  const COLON: int := 16
  const SEMI: int := 17
  const ASSIGN: int := 18
  const PIPE: int := 19
  const AMP: int := 20
  const BANG: int := 21
  const NEG: int := 22
  const SUM: int := 23
  const MUL: int := 24
  const QUO: int := 25
  const EQL: int := 26
  const NEQL: int := 27
  /** Sentinel below the keyword range; it has no name. */
  const KeywordsBeg: int := 28
  const TYPE: int := 29
  const SWITCH: int := 30
  const RETURN: int := 31
  const TRUE: int := 32
  const FALSE: int := 33
  const IF: int := 34
  const ELSE: int := 35
  const FUNC: int := 36
  const LET: int := 37
  /** Sentinel above the keyword range; also the length of the name table. */
  const KeywordsEnd: int := 38

  datatype Token = Token(kind: int, literal: string)

  /** Length of the name table: every kind below `KeywordsEnd` has a slot. */
  const NameCount: int := KeywordsEnd

  /** The name table, indexed by kind; the sentinel `KeywordsBeg` and every
      index outside the table have the empty name. */
  function Name(k: int): (r: string)
    ensures 0 <= k < KeywordsBeg ==> r != ""
    ensures IsKeyword(k) ==> r in KeywordSpellings
    ensures !(0 <= k < NameCount) || k == KeywordsBeg ==> r == ""
  {
    if IsKeyword(k) then KeywordName(k) else
    match k
    case 0 => "ILLEGAL"
    case 1 => "EOF"
    case 2 => "TRIVIA"
    case 3 => "COMMENT"
    case 4 => "IDENTITY"
    case 5 => "INT"
    case 6 => "["
    case 7 => "]"
    case 8 => "{"
    case 9 => "}"
    case 10 => "("
    case 11 => ")"
    case 12 => "<"
    case 13 => ">"
    case 14 => ","
    case 15 => "."
    case 16 => ":"
    case 17 => ";"
    case 18 => "="
    case 19 => "|"
    case 20 => "&"
    case 21 => "!"
    case 22 => "-"
    case 23 => "+"
    case 24 => "*"
    case 25 => "/"
    case 26 => "=="
    case 27 => "!="
    case _ => ""
  }

  predicate IsKeyword(k: int) {
    KeywordsBeg < k < KeywordsEnd
  }

  /** The keyword slice of the name table. */
  function KeywordName(k: int): string
    requires IsKeyword(k)
  {
    match k
    case 29 => "type"
    case 30 => "switch"
    case 31 => "return"
    case 32 => "true"
    case 33 => "false"
    case 34 => "if"
    case 35 => "else"
    case 36 => "func"
    case 37 => "let"
    case _ => ""
  }

  /** The nine keyword spellings. */
  const KeywordSpellings: set<string> :=
    {"type", "switch", "return", "true", "false", "if", "else", "func", "let"}

  lemma KeywordNames(k: int)
    requires IsKeyword(k)
    ensures Name(k) == KeywordName(k) && KeywordName(k) in KeywordSpellings
  {
  }

  /** The keyword spellings are pairwise distinct, so the inversion is well defined. */
  lemma KeywordNamesDistinct(a: int, b: int)
    requires IsKeyword(a) && IsKeyword(b) && a != b
    ensures KeywordName(a) != KeywordName(b)
  {
  }

  /**
   * The keyword map after the `init` loop has inserted the kinds
   * `KeywordsBeg + 1` up to, but excluding, `i`.
   */
  function KeywordsUpTo(i: int): (m: map<string, int>)
    requires KeywordsBeg + 1 <= i <= KeywordsEnd
    ensures forall k :: KeywordsBeg < k < i ==> KeywordName(k) in m && m[KeywordName(k)] == k
    ensures forall s :: s in m ==> KeywordsBeg < m[s] < i && KeywordName(m[s]) == s
    decreases i
  {
    if i == KeywordsBeg + 1 then map[]
    else
      var m := KeywordsUpTo(i - 1);
      assert forall k :: KeywordsBeg < k < i - 1 ==> KeywordName(k) != KeywordName(i - 1) by {
        forall k | KeywordsBeg < k < i - 1 {
          KeywordNamesDistinct(k, i - 1);
        }
      }
      m[KeywordName(i - 1) := i - 1]
  }

  /** The process-wide keyword map built once by `init`. */
  const Keywords: map<string, int> := KeywordsUpTo(KeywordsEnd)

  /** Every keyword spelling is a key of the keyword map. */
  lemma SpellingsAreKeys(s: string)
    requires s in KeywordSpellings
    ensures s in Keywords
  {
    var m := KeywordsUpTo(KeywordsEnd);
    if s == "type" { assert KeywordName(TYPE) in m; }
    else if s == "switch" { assert KeywordName(SWITCH) in m; }
    else if s == "return" { assert KeywordName(RETURN) in m; }
    else if s == "true" { assert KeywordName(TRUE) in m; }
    else if s == "false" { assert KeywordName(FALSE) in m; }
    else if s == "if" { assert KeywordName(IF) in m; }
    else if s == "else" { assert KeywordName(ELSE) in m; }
    else if s == "func" { assert KeywordName(FUNC) in m; }
    else { assert KeywordName(LET) in m; }
  }

  /** The keys of the keyword map are exactly the keyword spellings. */
  lemma KeywordsKeys(s: string)
    ensures s in Keywords <==> s in KeywordSpellings
  {
    if s in KeywordSpellings {
      SpellingsAreKeys(s);
    }
    if s in Keywords {
      KeywordNames(Keywords[s]);
    }
  }

  /** Resolves an identifier-shaped spelling to its keyword kind, or IDENT. */
  function Lookup(candidate: string): (r: int)
    ensures r == IDENT || IsKeyword(r)
    ensures IsKeyword(r) <==> candidate in KeywordSpellings
    ensures IsKeyword(r) ==> Name(r) == candidate
  {
    KeywordsKeys(candidate);
    if candidate in Keywords then
      KeywordNames(Keywords[candidate]);
      Keywords[candidate]
    else IDENT
  }

  /** For each keyword kind k, looking up its name gives k back. */
  lemma LookupInvertsNames(k: int)
    requires IsKeyword(k)
    ensures Lookup(Name(k)) == k
  {
    var m := KeywordsUpTo(KeywordsEnd);
    assert KeywordName(k) in m;
  }

  /** Lookup is case-sensitive: a capitalised keyword is an identifier. */
  lemma LookupIsCaseSensitive()
    ensures Lookup("Type") == IDENT && Lookup("IF") == IDENT
  {
    assert "Type"[0] == 'T' && "IF"[0] == 'I';
  }

  /** Operator spellings are not keywords. */
  lemma LookupOperators()
    ensures Lookup("==") == IDENT && Lookup("=") == IDENT && Lookup("") == IDENT
  {
    assert "=="[0] == '=' && "="[0] == '=';
  }

  /** True when kind k has a non-empty slot in the name table. */
  predicate IsNamed(k: int) {
    0 <= k < NameCount && Name(k) != ""
  }

  /** Renders a kind: its table name if it has one, `token(n)` otherwise. */
  function KindString(k: int): (r: string)
    ensures IsNamed(k) ==> r == Name(k)
    ensures !IsNamed(k) ==> |r| > 7 && r[..6] == "token(" && r[|r| - 1] == ')'
    ensures !IsNamed(k) ==> SignedValue(r[6..|r| - 1]) == Some(k)
  {
    var s := if 0 <= k < NameCount then Name(k) else "";
    if s == "" then
      var t := "token(" + IntToString(k) + ")";
      IntToStringRoundTrip(k);
      assert t[6..|t| - 1] == IntToString(k);
      t
    else s
  }

  /** No kind renders with a single quote in it. */
  lemma KindStringHasNoQuote(k: int)
    ensures '\'' !in KindString(k)
  {
    if !IsNamed(k) {
      var n := if k < 0 then -k else k;
      NatToStringRoundTrip(n);
      var d := NatToString(n);
      assert '\'' !in d by {
        forall i | 0 <= i < |d|
          ensures d[i] != '\''
        {
          assert IsDigit(d[i]);
        }
      }
      assert IntToString(k) == if k < 0 then "-" + d else d;
      var t := "token(" + IntToString(k) + ")";
      assert '\'' !in t;
    }
  }

  lemma NoNameLooksLikeToken(k: int)
    requires IsNamed(k)
    ensures |Name(k)| < 7 || Name(k)[0] != 't'
  {
  }

  /** The digits of `token(n)` determine n. */
  lemma TokenFormInjective(a: int, b: int)
    requires "token(" + IntToString(a) + ")" == "token(" + IntToString(b) + ")"
    ensures a == b
  {
    var sa := IntToString(a);
    var sb := IntToString(b);
    assert sa == ("token(" + sa + ")")[6..|sa| + 6];
    assert sb == ("token(" + sb + ")")[6..|sb| + 6];
    IntToStringRoundTrip(a);
    IntToStringRoundTrip(b);
  }

  /** Distinct kinds render differently, so every diagnostic names one kind. */
  lemma KindStringInjective(a: int, b: int)
    requires KindString(a) == KindString(b)
    ensures a == b
  {
    if IsNamed(a) && IsNamed(b) {
      assert Name(a) == Name(b);
    } else if !IsNamed(a) && !IsNamed(b) {
      TokenFormInjective(a, b);
    } else if IsNamed(a) {
      NoNameLooksLikeToken(a);
    } else {
      NoNameLooksLikeToken(b);
    }
  }

  /** The i-th token of a stream that continues with `EOF ""` forever after its end. */
  function TokenAt(toks: seq<Token>, i: int): (t: Token)
    ensures i < 0 || i >= |toks| ==> t == Token(EOF, "")
  {
    if 0 <= i < |toks| then toks[i] else Token(EOF, "")
  }

  /**
   * The shape of every token the scanner emits: an INT literal is a
   * non-empty digit run, an IDENT literal is a non-empty identifier that is
   * not a keyword, EOF has the empty literal, ILLEGAL carries one character,
   * and every other kind carries exactly its table name.
   */
  predicate WellFormed(t: Token) {
    if t.kind == INT then |t.literal| > 0 && IsDigits(t.literal)
    else if t.kind == IDENT then |t.literal| > 0 && t.literal !in KeywordSpellings
    else if t.kind == EOF then t.literal == ""
    else if t.kind == ILLEGAL then |t.literal| == 1
    else IsNamed(t.kind) && t.literal == Name(t.kind)
  }

  predicate AllWellFormed(toks: seq<Token>) {
    forall i :: 0 <= i < |toks| ==> WellFormed(toks[i])
  }
}

=== FILE: wrappers.dfy ===
/** Option: the model's stand-in for Go's nil pointers and nil interfaces. */
module Wrappers {

  datatype Option<+T> = None | Some(value: T)
}
